=== FILE: README.md ===
# CrowdHavens wallet ledger and interview flow, in Dafny

This project models the money-moving core of the CrowdHavens backend. It also models the worker interview state machine and the admin gate in front of interview review.

**The wallet ledger.** Each client has a wallet with `totalDeposited`, `unusedBalance` and `lockedFunds`. One ADMIN user's wallet is the platform wallet. Every move of money through the deposit, withdraw, task and admin-task routes is logged as a `walletTransaction` entry.
- A deposit credits the client with the amount minus a 10% fee, and credits the fee to the platform.
- A withdrawal debits the gross amount, credits the fee to the platform, and pays the rest out of the system.
- Submitting a task moves its cost from the client's unused balance into its locked funds. The task then waits for an admin.
- An admin either approves the task, moving the locked cost into platform escrow and setting the task LIVE, or rejects it, returning the cost to the client and closing the task with a reason.
- A separate route pays a worker the reward for an approved task completion. It writes no ledger entry.

**The interview flow.** A worker reads its interview state (`/me`) and submits an interview (`/submit`). An admin lists pending interviews, approves or rejects them, and can ask when a given user's retry is open (`/retry-status`). The review routes sit behind the `adminInterviewOnly` gate, which admits an ADMIN whose lower-cased email is on a three-entry whitelist.

**How the model works.**
- Money is integer cents and time is integer milliseconds.
- Each `prisma.$transaction` callback is a pure function from a `Ledger` to `Result<…, LedgerError>`. An error carries no state, so a failed transaction leaves the ledger exactly as it was. This covers an `{ error }` returned before any write as well as an exception thrown after a write and rolled back.
- The interview routes are not transactional. Each route that writes returns a `Reply` holding the store it leaves behind, together with the outcome.

**Modules.**
- `Types`: `Option`, `Result`, ids and parsed JSON numbers.
- `MapSum`: sums over finite maps.
- `Money`: fee split, rounding to cents, amount parsing.
- `Ledger`: wallets, tasks, entries and the ledger invariant.
- `DepositRoute`, `WithdrawRoute`, `TaskRoute`, `AdminTaskRoute`: one module per route file.
- `EscrowRun`: any sequence of wallet requests, and the theorems about runs.
- `EscrowScenarios`: concrete task flows.
- `CompletionRoute`: completion payout.
- `Accounts`, `InterviewStore`, `InterviewRoute`, `InterviewReviewRoute`: the interview flow.
- `AdminGate`: the admin gate.

**Main theorems.**
- Over any sequence of deposit, withdraw, task-create, approve and reject requests, starting from a state satisfying the invariant:
  - the funds held in all wallets change by exactly what deposits brought in minus what withdrawals paid out (`EscrowRun.RunConservesFunds`);
  - no balance goes negative, and every client's locked funds equal the cost of its tasks still waiting for approval (`EscrowRun.RunPreservesInv`);
  - the log is append-only and an approved or rejected task never changes status again (`EscrowRun.RunAppendsAndKeepsDecisions`).

## Model

| member | source | states |
|---|---|---|
| Money.RoundCents | routes/deposit.js:10 | `Number(x.toFixed(2))` for a non-negative amount is the whole number of cents within half a cent of it |
| Money.Split | routes/deposit.js:24-26 | fee plus net is exactly the gross amount; the fee is the nearest cent to `FeePercent` (10, the source's `PLATFORM_FEE_RATE = 0.10`) per cent of the amount; the fee never exceeds the net |
| Money.SplitFeeIsRoundedTenth | routes/deposit.js:25 | the integer fee formula equals rounding `amt * PLATFORM_FEE_RATE` to cents, for every amount |
| Money.FeeExample | routes/deposit.js:24-26 | 19.99 parses to 1999 cents and splits into a fee of 200 and a net of 1799 |
| Money.ParseAmountAsWritten | routes/deposit.js:8-11 | `parseAmount` as written: a result exactly when the input is finite and positive, and then the value rounded to cents |
| Money.ParseAmountAdmitsZero | routes/deposit.js:10 | the input 0.004 passes the positivity test and parses to zero cents |
| Money.ParseAmount | routes/withdraw.js:8-11 | corrected `parseAmount`: a result exactly when the input is finite and at least half a cent; the result is positive and within half a cent of the input |
| Money.ParseAmountAgreesExceptZero | routes/deposit.js:8-11 | the corrected parser refuses exactly the inputs the written one turns into 0, and agrees with it everywhere else |
| Money.ParseNumber | routes/task.js:8-11 | `parseNumber` yields a value exactly for finite input, and that value unchanged (no sign check) |
| Ledger.Adjust | routes/deposit.js:31-50 | an `increment`/`decrement` update on one wallet, applied to a zeroed row when the wallet was missing; no other wallet changes |
| Ledger.AdjustTotal | routes/deposit.js:44-50 | adjusting one wallet moves the system total by exactly the change to its unused plus locked funds |
| Ledger.PendingTaskIsCovered | routes/adminTask.js:32-36 | under the invariant, a pending task's client has a wallet whose locked funds cover the task's cost |
| Ledger.InvAfterBalanceChange | routes/deposit.js:43-86 | a change that keeps tasks, keeps every wallet, keeps balances non-negative and leaves locked funds alone preserves the invariant |
| DepositRoute.DepositTx | routes/deposit.js:29-104 | fails exactly when there is no ADMIN user, and then changes nothing; otherwise the client (created if missing) gets deposited += amt, unused += net and locked unchanged; the platform gets unused += fee; DEPOSIT(amt, fee) and FEE(fee) are appended; no other wallet changes |
| DepositRoute.Deposit | routes/deposit.js:15-22 | a missing user id or an unparsable amount is refused before the transaction; success needs a positive amount and an ADMIN user |
| DepositRoute.DepositConservesFunds | routes/deposit.js:43-86 | a deposit raises the system's funds by exactly the gross amount |
| DepositRoute.DepositPreservesInv | routes/deposit.js:43-86 | a deposit keeps balances non-negative and locked funds equal to pending task costs |
| WithdrawRoute.WithdrawTx | routes/withdraw.js:27-96 | the refusals, in order: wallet not found, insufficient unused balance, no ADMIN user (rolled back); on success unused -= amt with deposited and locked unchanged, platform unused += fee, payout + fee == amt, WITHDRAWAL(amt, fee) and FEE(fee) appended, other wallets unchanged |
| WithdrawRoute.Withdraw | routes/withdraw.js:15-27 | a missing user id or an unparsable amount is refused before the transaction; a present id with an amount that parses always reaches the transaction, and a success withdraws a positive amount |
| WithdrawRoute.WithdrawConservesFunds | routes/withdraw.js:86-95 | a withdrawal lowers the system's funds by exactly the payout; the fee stays with the platform |
| WithdrawRoute.WithdrawPreservesInv | routes/withdraw.js:32-42 | the balance guard keeps unused balances non-negative; locked funds still equal pending task costs |
| TaskRoute.TaskCost | routes/task.js:40 | the total cost is `reward * nWorkers` rounded to the nearest cent |
| TaskRoute.CreateTask | routes/task.js:28-46 | missing fields are refused first; invalid numbers exactly when a value is non-finite or not positive; with valid numbers a rounded product under MIN_TASK_COST is refused as below the minimum and any other reaches the lock transaction on that product |
| TaskRoute.LockTx | routes/task.js:46-93 | fails exactly when the wallet is missing or its unused balance is below the cost; otherwise unused -= cost, locked += cost, a PENDING_ADMIN_APPROVAL task is created under the next id and LOCK(cost, fee 0) is appended |
| TaskRoute.CreatedTaskShape | routes/task.js:66-91 | the created task is pending, belongs to and was submitted by the client, carries the parsed reward and worker count and a cost of at least 5.00 within half a cent of their product; one LOCK entry is appended |
| TaskRoute.LockConservesFunds | routes/task.js:56-63 | locking a task's cost leaves the system total unchanged |
| TaskRoute.LockPreservesInv | routes/task.js:46-93 | the new task's id is unused, and the client's locked funds grow by exactly the new pending task's cost |
| TaskRoute.InvAfterLock | routes/task.js:46-93 | moving a covered cost from unused to locked funds while adding a pending task under the next id keeps balances non-negative and every wallet's locked funds equal to its pending tasks' costs |
| AdminTaskRoute.ApproveTask | routes/adminTask.js:15-23 | a missing admin id (401), then a missing or zero task id (400), are refused before anything is read; with both present the approve transaction decides |
| AdminTaskRoute.ApproveTx | routes/adminTask.js:23-95 | succeeds exactly for a pending task whose client wallet's locked funds cover the cost and when an ADMIN user exists; then client locked -= cost, platform unused += cost, ESCROW and UNLOCK appended, the task LIVE with adminEditedBy and adminEditedAt set; other wallets unchanged |
| AdminTaskRoute.RejectTask | routes/adminTask.js:106-114 | a missing admin id, then a missing or zero task id or a missing or empty reason, are refused before anything is read; with all three present the reject transaction decides; a success records the reason |
| AdminTaskRoute.RejectTx | routes/adminTask.js:114-162 | succeeds exactly for a pending task whose client wallet's locked funds cover the cost; the cost moves from locked back to unused, one UNLOCK is appended, and the task is CLOSED with the reason and the admin; no other wallet changes |
| AdminTaskRoute.ApproveConservesFunds | routes/adminTask.js:39-64 | approval leaves the system total unchanged |
| AdminTaskRoute.RejectConservesFunds | routes/adminTask.js:133-139 | rejection leaves the system total unchanged |
| AdminTaskRoute.ApproveGuardsRedundant | routes/adminTask.js:32-36 | under the invariant the wallet and locked-funds guards never fire: approving a pending task fails only without an ADMIN user, and rejecting it, with any reason, always succeeds |
| AdminTaskRoute.ApprovalWallets | routes/adminTask.js:39-64 | after approval's two wallet updates balances stay non-negative and only the client's locked funds move, down by the cost |
| AdminTaskRoute.ApprovePreservesInv | routes/adminTask.js:35-42 | approval keeps balances non-negative and locked funds equal to pending task costs |
| AdminTaskRoute.RejectPreservesInv | routes/adminTask.js:126-139 | rejection keeps balances non-negative and locked funds equal to pending task costs |
| AdminTaskRoute.DecisionIsFinal | routes/adminTask.js:24-27 | after an approval or a rejection, any further approval or rejection of the same task is refused as not pending |
| AdminTaskRoute.UnlockEntryIsAmbiguous | routes/adminTask.js:75-82 | approve and reject append the same UNLOCK entry to the client's log, yet leave its unused balance differing by the task's cost |
| EscrowRun.DepositStepSound | routes/deposit.js:29-104 | a deposit request keeps the invariant, only appends to the log, and leaves the task map exactly as it was |
| EscrowRun.WithdrawStepSound | routes/withdraw.js:27-96 | a withdrawal request keeps the invariant, only appends to the log, and leaves the task map exactly as it was |
| EscrowRun.CreateTaskStepSound | routes/task.js:46-93 | a task submission keeps the invariant, only appends to the log, and every task already there is still there unchanged |
| EscrowRun.ApproveStepSound | routes/adminTask.js:23-95 | an approval request keeps the invariant and only appends; the set of task ids is unchanged and the only task that can differ is the one the request names, and only if it was pending |
| EscrowRun.RejectStepSound | routes/adminTask.js:114-162 | a rejection request keeps the invariant and only appends; the set of task ids is unchanged and the only task that can differ is the one the request names, and only if it was pending |
| EscrowRun.StepConservesFunds | routes/adminTask.js:23-95 | one wallet request changes the system total by exactly its inflow: the gross of a deposit, minus the payout of a withdrawal, zero otherwise |
| EscrowRun.StepPreservesInv | routes/task.js:46-93 | every wallet request preserves the invariant |
| EscrowRun.StepAppendsAndKeepsDecisions | routes/adminTask.js:24-27 | every wallet request only appends entries, and keeps the status of every task already decided |
| EscrowRun.RunConservesFunds | routes/withdraw.js:86-95 | over any sequence of wallet requests the system total changes by exactly deposits in minus payouts out |
| EscrowRun.RunPreservesInv | routes/adminTask.js:35-36 | the invariant holds after any sequence of requests that starts from it |
| EscrowRun.RunAppendsAndKeepsDecisions | routes/adminTask.js:115-118 | over any sequence of requests the log only grows and LIVE or CLOSED tasks stay so |
| EscrowRun.FromEmpty | routes/deposit.js:31-41 | from an empty database no sequence of requests makes a balance negative, and the funds held equal the net inflow |
| EscrowScenarios.SubmitThenApprove | routes/adminTask.js:39-92 | a 5 x 10.00 task locks 50.00; approving it empties the lock, credits 50.00 to a platform wallet created for it, and sets the task LIVE by the admin |
| EscrowScenarios.SubmitThenReject | routes/adminTask.js:133-159 | rejecting the same task returns the 50.00 to unused and closes it with the reason |
| EscrowScenarios.SubmitWithoutFunds | routes/task.js:51-53 | a 50.00 task against 10.00 unused is refused as insufficient funds |
| EscrowScenarios.SubmitBelowMinimum | routes/task.js:40-43 | a 4.99 task is refused as below the minimum cost |
| CompletionRoute.ApproveCompletion | routes/task.routes.js:4-57 | a missing id, an unknown completion and an already approved one are refused with no change; on success the worker gets balance += reward, locked -= reward, pendingEarnings -= reward, the completion is approved with rewardPaid = reward, and every platform earnings row grows by a tenth of the reward |
| CompletionRoute.PaidAtMostOnce | routes/task.routes.js:20 | a completion just approved is refused on a second approval |
| CompletionRoute.ApprovalPaysItsReward | routes/task.routes.js:26-45 | one approval raises workers' balances by exactly the reward of the one completion it marks approved |
| CompletionRoute.ApproveAllPaysEachOnce | routes/task.routes.js:19-45 | over any series of approvals the workers' balances grow by exactly the rewards of the completions newly approved, each counted once, and no completion is un-approved |
| CompletionRoute.LockedIsUnguarded | routes/task.routes.js:29-36 | nothing stops `locked` and `pendingEarnings` from going negative |
| InterviewRoute.CanRetry | routes/interview.js:32-44 | a retry is open only for a REJECTED user with a recorded submission time, and for such a user exactly when the cooldown test /submit applies passes (three days since the submission) |
| InterviewRoute.Me | routes/interview.js:11-56 | a missing user id is a 401 and an unknown user a 404; a known user always gets an answer: the role and the status (NOT_STARTED when absent), with a retry open exactly when REJECTED, a submission time is recorded and three days have passed since it |
| InterviewRoute.Submit | routes/interview.js:62-136 | the refusals, in order: missing fields, unknown user, APPROVED, REJECTED within three days, PENDING_REVIEW; a first submission (no status or NOT_STARTED) succeeds exactly when the user has no interview row yet; a refusal leaves the store unchanged; on success the user's old interviews are gone, exactly one new PENDING_REVIEW interview is there, and the user is PENDING_REVIEW with the submission time |
| InterviewRoute.MeAgreesWithSubmit | routes/interview.js:32-44 | for a rejected worker with a recorded submission, /me offers a retry exactly when /submit would accept one |
| InterviewRoute.SubmitPreservesWf | routes/interview.js:96-116 | submission keeps interview ids unique and ascending, one interview per user, every interview with a user |
| InterviewRoute.NullSubmissionTimeDisagrees | routes/interview.js:86-94 | a rejected user with no submission time gets no retry from /me but is accepted by /submit |
| InterviewStore.IndexOfId | routes/interviewReview.routes.js:52-53 | `where: { id }`: finds the position of the interview with that id, or reports that no interview has it |
| InterviewStore.WithoutUser | routes/interview.js:97-99 | `deleteMany({ where: { userId } })`: an interview survives exactly when it was there and belongs to another user |
| InterviewStore.IndexOfUser | routes/interviewReview.routes.js:121-123 | finds the first interview of a user, or reports there is none |
| InterviewStore.Keep | routes/interview.js:97-99 | a `where` filter: an interview is kept exactly when it was there and satisfies the condition |
| InterviewStore.KeepKeepsDistinct | routes/interview.js:97-99 | filtering keeps ids and users pairwise distinct |
| InterviewStore.KeepKeepsAscending | routes/interviewReview.routes.js:29-31 | filtering keeps interviews in creation order |
| InterviewStore.AppendFresh | routes/interview.js:110-116 | creating an interview with a new id for a user without one keeps the table distinct and ordered |
| InterviewReviewRoute.PendingInterviews | routes/interviewReview.routes.js:14-39 | lists exactly the interviews whose status is PENDING_REVIEW |
| InterviewReviewRoute.PendingInCreationOrder | routes/interviewReview.routes.js:29-31 | the pending list has no duplicates and runs oldest first |
| InterviewReviewRoute.SubmittedIsPending | routes/interview.js:110-116 | a successful submission puts the new interview on the pending list |
| InterviewReviewRoute.ReviewedIsNotPending | routes/interviewReview.routes.js:52-58 | after a review the interview is off the pending list |
| InterviewReviewRoute.Review | routes/interviewReview.routes.js:45-65 | a missing or zero interview id is refused and an unknown one changes nothing; otherwise the interview gets the new status and review time, and the user then gets the new status; only that interview and that user change |
| InterviewReviewRoute.ApproveInterview | routes/interviewReview.routes.js:44-72 | on success the interview and its user are both APPROVED |
| InterviewReviewRoute.RejectInterview | routes/interviewReview.routes.js:77-110 | on success the interview and its user are both REJECTED, with retryAfter three days from now |
| InterviewReviewRoute.ApproveInterviewIdempotent | routes/interviewReview.routes.js:52-65 | approving again at any later time changes only the interview's review time: users, statuses and every other field stay as the first approval left them; at the same time it changes nothing |
| InterviewReviewRoute.IndexOfIdUnique | routes/interviewReview.routes.js:52-53 | rewriting the interview found keeps it the one found by that id |
| InterviewReviewRoute.ReviewPreservesWf | routes/interviewReview.routes.js:89-103 | under the table's constraints, reviewing an existing interview by a non-zero id always succeeds and keeps the constraints |
| InterviewReviewRoute.HoursCeil | routes/interviewReview.routes.js:136 | the whole hours remaining, rounded up: at least one, and the first whole number of hours covering the wait |
| InterviewReviewRoute.RetryStatus | routes/interviewReview.routes.js:115-142 | a missing user id is a 400; no interview means no retry; a retry is open exactly when there is no retry time or it has passed; otherwise the retry time and hours remaining, at least 1 |
| InterviewReviewRoute.RetryStatusIgnoresReviewState | routes/interviewReview.routes.js:130-134 | an interview still pending review, which /submit refuses to replace, is reported as open for retry |
| InterviewReviewRoute.CooldownClocksDisagree | routes/interviewReview.routes.js:86-87 | submitted at day 0 and rejected at day 1, a worker can resubmit at day 3 while /retry-status still reports 24 hours to wait |
| AdminGate.LowerChar | middleware/adminInterviewOnly.js:38 | ASCII lower-casing of one character: letters move down by 32, nothing else changes, and no upper-case letter remains |
| AdminGate.ToLower | middleware/adminInterviewOnly.js:38 | `toLowerCase` keeps the length and lower-cases each character |
| AdminGate.ToLowerIdempotent | middleware/adminInterviewOnly.js:38 | lower-casing twice equals lower-casing once |
| AdminGate.AdminInterviewOnly | middleware/adminInterviewOnly.js:17-42 | proceeds exactly when a user id is given (body first, then query), the user exists, is ADMIN, and has a lower-cased email on the whitelist; a missing id or unknown user is a 401; a non-ADMIN is a 403 |
| AdminGate.GateIgnoresEmailCase | middleware/adminInterviewOnly.js:38-40 | two emails equal up to case get the same verdict |
| AdminGate.WorkerCannotAskRetryStatus | middleware/adminInterviewOnly.js:19-36 | the gate, mounted over every review route, refuses a non-admin user who names itself in the `userId` query, so a worker never reaches the /retry-status handler |
| AdminGate.DirectorPasses | middleware/adminInterviewOnly.js:11-15 | an ADMIN stored as "Director@CrowdHavens.com" passes |
| AdminGate.OtherAdminRefused | middleware/adminInterviewOnly.js:38-40 | an ADMIN whose email is not on the whitelist is refused as email not allowed |

## Left out

- Concurrency: every transaction is applied atomically, one at a time. Races between a guarded read and a write under weaker isolation are not modelled.
- JavaScript binary floating point: amounts are exact reals rounded half up to whole cents. `toFixed` on binary doubles can round a decimal half down, for example `1.005.toFixed(2)` is `"1.00"`.
- Prisma `Decimal` storage: it is integer cents here.
- The legacy `wallet.balance` fallback in withdraw and task creation (`unusedBalance ?? balance ?? 0`): wallets here always carry `unusedBalance`.
- `findFirst({ role: "ADMIN" })`: when several ADMIN users exist, which one it picks is left to the database. The ledger holds the one it returns as `adminUser`.
- Task metadata beyond the title (description, type, instructions, proof flag): stored with the source's defaults and never consulted.
- Task and interview ids are numbers, and a missing id or reason is `None`. The `!taskId` and `!interviewId` tests refuse the number 0 as well (`Types.Truthy`), and task and interview ids count up from 1, as a database sequence does. JavaScript falsiness of other values (`false`, `NaN`, a non-numeric id) is not modelled; user ids are non-empty strings, so `!userId` is exactly `None`.
- HTTP status codes and JSON shapes: errors are a typed enumeration, with the status noted beside each constructor.
- Exceptions other than those the routes evidently raise (missing ADMIN user, missing row on `update`, unique key violation): database failures are not modelled.
- The admin id of the task approval routes is the `x-user-id` header, falling back to the `adminId` body field (routes/adminTask.js:18 and 109). The model takes the resulting id, `None` when both are absent.
- Clocks: `Date.now()` and `new Date()` are a `now` parameter in milliseconds.
- InterviewReviewRoute.RejectInterview: `setDate(getDate() + 3)` is calendar arithmetic in local time, taken here as 72 hours. Across a daylight-saving change the two differ by an hour.
- AdminGate.ToLower: lower-cases ASCII letters only, not the full Unicode case mapping of `toLowerCase`.
- CompletionRoute.ApproveCompletion: the platform cut `reward * 0.10` is not rounded in the source, so earnings are counted in tenths of a cent. The route's writes are not in a transaction. If the worker wallet is missing the first update throws and nothing is written. Failures of the later writes are not modelled.
- The `adminOnly` middleware that guards /approve-completion is not part of this model. The file defining it is not among the route files modelled.
- The `router.use(adminInterviewOnly)` wiring: the gate decision is modelled on its own, not composed with each review route. Once composed, /retry-status answers no WORKER, although its comment says it is for workers: the gate refuses any non-admin `userId` (`AdminGate.WorkerCannotAskRetryStatus`).
- The user fields `/pending` joins in (id, email, createdAt of the user): the listing returns the interviews only. Interviews are ordered by creation, which under the table's constraints is the order of their ids.
- Nothing in /retry-status or /me reads the interview's answers, so answers are stored and never inspected.

## Findings

| source | as written | input that shows it | evidently intended | confidence | as-written member | corrected member |
|---|---|---|---|---|---|---|
| routes/deposit.js:10 (same code at routes/withdraw.js:10) | `parseAmount` tests `n > 0` before rounding with `toFixed(2)`, so a positive amount under half a cent passes and becomes 0 | `amount = 0.004` parses to `0`; a deposit or withdrawal of 0.00 with a 0.00 fee is then recorded | only amounts that are still positive after rounding to cents are accepted | not executed | Money.ParseAmountAdmitsZero | Money.ParseAmount |

The deposit and withdraw routes in this model use the corrected `Money.ParseAmount`. `Money.ParseAmountAsWritten` keeps the parser as written, and `Money.ParseAmountAgreesExceptZero` shows the two differ only on inputs that round to zero.

Other behaviours of the source are proved as lemmas rather than logged as bugs, because which behaviour was intended is not evident:
- `AdminTaskRoute.UnlockEntryIsAmbiguous`: UNLOCK means two different balance changes, so a client's log cannot be replayed into its balances.
- `InterviewReviewRoute.CooldownClocksDisagree`: /submit measures the cooldown from the submission, /retry-status from the rejection.
- `InterviewReviewRoute.RetryStatusIgnoresReviewState`: /retry-status does not look at the review state.
- `InterviewRoute.NullSubmissionTimeDisagrees`: a missing submission time blocks retry in /me but reads as the epoch in /submit.
- `AdminGate.WorkerCannotAskRetryStatus`: /retry-status is marked as for workers but sits behind the admin gate, which refuses every worker.
- `CompletionRoute.LockedIsUnguarded`: worker `locked` and `pendingEarnings` can go negative.

=== FILE: accounts.dfy ===
/** The user record as the interview routes and the interview admin gate read it. */
module Accounts {
  import opened Types

  datatype InterviewStatus = NotStarted | PendingReview | Approved | Rejected

  /** `role` and `email` as stored; `interviewStatus` and `interviewSubmittedAt`
      (milliseconds since the epoch) may be null. */
  datatype User = User(
    role: string,
    email: string,
    interviewStatus: Option<InterviewStatus>,
    interviewSubmittedAt: Option<int>)
}

=== FILE: admin_gate.dfy ===
/** The `adminInterviewOnly` middleware (middleware/adminInterviewOnly.js) in
    front of the interview review routes. */
module AdminGate {
  import opened Types
  import opened Accounts

  /** ALLOWED_ADMIN_EMAILS. */
  const AllowedAdminEmails: seq<string> := ["director@crowdhavens.com", "admin1@crowdhavens.com", "admin3@crowdhavens.com"]

  /** `toLowerCase` on one character, for the ASCII letters. */
  function LowerChar(c: char): (d: char)
    ensures !('A' <= d <= 'Z')
    ensures 'A' <= c <= 'Z' ==> d as int == c as int + 32
    ensures !('A' <= c <= 'Z') ==> d == c
  {
    if 'A' <= c <= 'Z' then (c as int + 32) as char else c
  }

  function ToLower(s: string): (r: string)
    ensures |r| == |s|
    ensures forall i :: 0 <= i < |s| ==> r[i] == LowerChar(s[i])
  {
    seq(|s|, i requires 0 <= i < |s| => LowerChar(s[i]))
  }

  /** Lower-casing twice is lower-casing once. */
  lemma ToLowerIdempotent(s: string)
    ensures ToLower(ToLower(s)) == ToLower(s)
  {
    var r := ToLower(s);
    assert forall i :: 0 <= i < |r| ==> LowerChar(r[i]) == r[i];
  }

  /** The middleware's verdict: go on to the route, 401, or one of the two 403s. */
  datatype Decision = Proceed | Unauthorized | AdminsOnly | EmailNotAllowed

  /** The checks, in order: a user id (body first, then query) must be given; the
      user must exist; its role must be ADMIN; its lower-cased email must be on the list. */
  function AdminInterviewOnly(users: map<Id, User>, bodyUserId: Option<Id>, queryUserId: Option<Id>): (d: Decision)
    ensures var uid := if bodyUserId.Some? then bodyUserId else queryUserId;
      && (d == Proceed <==>
            && uid.Some? && uid.value in users
            && users[uid.value].role == "ADMIN"
            && ToLower(users[uid.value].email) in AllowedAdminEmails)
      && (d == Unauthorized <==> uid.None? || uid.value !in users)
      && (d == AdminsOnly <==> uid.Some? && uid.value in users && users[uid.value].role != "ADMIN")
  {
    var uid := if bodyUserId.Some? then bodyUserId else queryUserId;
    if uid.None? then Unauthorized
    else if uid.value !in users then Unauthorized
    else
      var u := users[uid.value];
      if u.role != "ADMIN" then AdminsOnly
      else if ToLower(u.email) !in AllowedAdminEmails then EmailNotAllowed
      else Proceed
  }

  /** The email check ignores letter case: two emails equal up to case get the same verdict. */
  lemma GateIgnoresEmailCase(users: map<Id, User>, id: Id, email: string)
    requires id in users
    requires ToLower(email) == ToLower(users[id].email)
    ensures AdminInterviewOnly(users[id := users[id].(email := email)], Some(id), None)
         == AdminInterviewOnly(users, Some(id), None)
  {
  }

  /** The gate runs in front of every review route, /retry-status included, and
      reads the `userId` query field that /retry-status itself reads: a worker
      asking about its own retry is refused as not an admin. */
  lemma WorkerCannotAskRetryStatus(users: map<Id, User>, w: Id)
    requires w in users && users[w].role != "ADMIN"
    ensures AdminInterviewOnly(users, None, Some(w)) == AdminsOnly
  {
  }

  /** A whitelisted admin passes whatever the case of its stored email. */
  lemma DirectorPasses()
    ensures AdminInterviewOnly(map["d" := User("ADMIN", "Director@CrowdHavens.com", None, None)], None, Some("d"))
         == Proceed
  {
    var e := "Director@CrowdHavens.com";
    var r := ToLower(e);
    forall i | 0 <= i < |e|
      ensures r[i] == "director@crowdhavens.com"[i]
    {
      assert r[i] == LowerChar(e[i]);
    }
    assert r == "director@crowdhavens.com";
  }

  /** An ADMIN whose email is not on the list is refused with 403. */
  lemma OtherAdminRefused()
    ensures AdminInterviewOnly(map["x" := User("ADMIN", "ops@x.io", None, None)], Some("x"), None)
         == EmailNotAllowed
  {
    var e := "ops@x.io";
    var r := ToLower(e);
    forall i | 0 <= i < |e|
      ensures r[i] == e[i]
    {
      assert r[i] == LowerChar(e[i]);
    }
    assert r == e;
  }
}

=== FILE: admin_task.dfy ===
/** POST /api/admin/task/approve and /reject (routes/adminTask.js): the admin
    decision on a task waiting for approval. */
module AdminTaskRoute {
  import opened Types
  import opened Money
  import opened Ledger

  /** The approve transaction: the task must exist and be waiting for approval,
      its client's wallet must exist and hold at least the task's cost locked.
      The cost leaves the client's locked funds and is credited, as escrow, to
      the platform wallet (created if missing); ESCROW and UNLOCK are logged and
      the task goes LIVE, attributed to the admin. With no ADMIN user the callback
      throws after the client debit, which is rolled back. */
  function ApproveTx(L: Ledger, adminId: Id, taskId: nat, now: int): (r: Result<Ledger, LedgerError>)
    ensures taskId !in L.tasks ==> r == Err(TaskNotFound)
    ensures taskId in L.tasks && L.tasks[taskId].status != PendingAdminApproval ==> r == Err(TaskNotPending)
    ensures r.Ok? <==>
      && taskId in L.tasks && L.tasks[taskId].status == PendingAdminApproval
      && L.tasks[taskId].clientId in L.wallets
      && L.wallets[L.tasks[taskId].clientId].lockedFunds >= L.tasks[taskId].totalCost
      && L.adminUser.Some?
    ensures r.Ok? ==>
      var t := L.tasks[taskId];
      var c := t.clientId;
      var a := L.adminUser.value;
      var cw := L.wallets[c];
      var p := WalletOrEmpty(L, a);
      var L' := r.value;
      && L'.wallets.Keys == L.wallets.Keys + {a}
      && (c != a ==>
            && L'.wallets[c] == cw.(lockedFunds := cw.lockedFunds - t.totalCost)
            && L'.wallets[a] == p.(unusedBalance := p.unusedBalance + t.totalCost))
      && (c == a ==> L'.wallets[c] == cw.(lockedFunds := cw.lockedFunds - t.totalCost,
                                          unusedBalance := cw.unusedBalance + t.totalCost))
      && (forall v :: v in L.wallets && v != c && v != a ==> L'.wallets[v] == L.wallets[v])
      && L'.entries == L.entries + [Entry(a, Escrow, t.totalCost, None), Entry(c, Unlock, t.totalCost, None)]
      && L'.tasks == L.tasks[taskId := t.(status := Live, adminEditedBy := Some(adminId), adminEditedAt := Some(now))]
      && L'.adminUser == L.adminUser && L'.nextTaskId == L.nextTaskId
  {
    if taskId !in L.tasks then
      Err(TaskNotFound)
    else
      var t := L.tasks[taskId];
      if t.status != PendingAdminApproval then
        Err(TaskNotPending)
      else if t.clientId !in L.wallets then
        Err(ClientWalletNotFound)
      else if L.wallets[t.clientId].lockedFunds < t.totalCost then
        Err(LockedFundsInsufficient)
      else
        var ws2 := Adjust(L.wallets, t.clientId, 0, 0, -t.totalCost);
        if L.adminUser.None? then
          Err(AdminUserMissing)
        else
          var a := L.adminUser.value;
          var ws4 := Adjust(ws2, a, 0, t.totalCost, 0);
          Ok(L.(wallets := ws4,
                entries := L.entries + [Entry(a, Escrow, t.totalCost, None), Entry(t.clientId, Unlock, t.totalCost, None)],
                tasks := L.tasks[taskId := t.(status := Live, adminEditedBy := Some(adminId), adminEditedAt := Some(now))]))
  }

  /** The approve route: a missing admin id is a 401 and a missing (or zero) task
      id a 400, both before anything is read. */
  function ApproveTask(L: Ledger, adminId: Option<Id>, taskId: Option<nat>, now: int): (r: Result<Ledger, LedgerError>)
    ensures adminId.None? ==> r == Err(MissingAdminId)
    ensures adminId.Some? && !Truthy(taskId) ==> r == Err(TaskIdRequired)
    ensures adminId.Some? && Truthy(taskId) ==> r == ApproveTx(L, adminId.value, taskId.value, now)
    ensures r.Ok? ==> adminId.Some? && Truthy(taskId) && r == ApproveTx(L, adminId.value, taskId.value, now)
  {
    if adminId.None? then Err(MissingAdminId)
    else if !Truthy(taskId) then Err(TaskIdRequired)
    else ApproveTx(L, adminId.value, taskId.value, now)
  }

  /** The reject transaction: the same task and locked-funds guards as approve;
      the cost moves from the client's locked funds back to its unused balance,
      UNLOCK is logged, and the task is CLOSED with the reason, attributed to the admin. */
  function RejectTx(L: Ledger, adminId: Id, taskId: nat, reason: string, now: int): (r: Result<Ledger, LedgerError>)
    ensures taskId !in L.tasks ==> r == Err(TaskNotFound)
    ensures taskId in L.tasks && L.tasks[taskId].status != PendingAdminApproval ==> r == Err(TaskNotPending)
    ensures r.Ok? <==>
      && taskId in L.tasks && L.tasks[taskId].status == PendingAdminApproval
      && L.tasks[taskId].clientId in L.wallets
      && L.wallets[L.tasks[taskId].clientId].lockedFunds >= L.tasks[taskId].totalCost
    ensures r.Ok? ==>
      var t := L.tasks[taskId];
      var c := t.clientId;
      var cw := L.wallets[c];
      var L' := r.value;
      && L'.wallets == L.wallets[c := cw.(lockedFunds := cw.lockedFunds - t.totalCost,
                                          unusedBalance := cw.unusedBalance + t.totalCost)]
      && L'.entries == L.entries + [Entry(c, Unlock, t.totalCost, None)]
      && L'.tasks == L.tasks[taskId := t.(status := Closed, rejectionReason := Some(reason),
                                           adminEditedBy := Some(adminId), adminEditedAt := Some(now))]
      && L'.adminUser == L.adminUser && L'.nextTaskId == L.nextTaskId
  {
    if taskId !in L.tasks then
      Err(TaskNotFound)
    else
      var t := L.tasks[taskId];
      if t.status != PendingAdminApproval then
        Err(TaskNotPending)
      else if t.clientId !in L.wallets then
        Err(ClientWalletNotFound)
      else if L.wallets[t.clientId].lockedFunds < t.totalCost then
        Err(LockedFundsInsufficient)
      else
        Ok(L.(wallets := Adjust(L.wallets, t.clientId, 0, t.totalCost, -t.totalCost),
              entries := L.entries + [Entry(t.clientId, Unlock, t.totalCost, None)],
              tasks := L.tasks[taskId := t.(status := Closed, rejectionReason := Some(reason),
                                             adminEditedBy := Some(adminId), adminEditedAt := Some(now))]))
  }

  /** The reject route: a missing admin id is a 401; a missing task id or a
      missing or empty reason is a 400; both before anything is read. */
  function RejectTask(L: Ledger, adminId: Option<Id>, taskId: Option<nat>, reason: Option<string>, now: int)
    : (r: Result<Ledger, LedgerError>)
    ensures adminId.None? ==> r == Err(MissingAdminId)
    ensures adminId.Some? && (!Truthy(taskId) || reason.None? || reason == Some("")) ==> r == Err(TaskIdRequired)
    ensures adminId.Some? && Truthy(taskId) && reason.Some? && reason.value != "" ==>
      r == RejectTx(L, adminId.value, taskId.value, reason.value, now)
    ensures r.Ok? ==> reason.Some? && reason.value != ""
    ensures r.Ok? ==> taskId.value in r.value.tasks && r.value.tasks[taskId.value].rejectionReason == reason
    ensures r.Ok? ==> r == RejectTx(L, adminId.value, taskId.value, reason.value, now)
  {
    if adminId.None? then Err(MissingAdminId)
    else if !Truthy(taskId) || reason.None? || reason.value == "" then Err(TaskIdRequired)
    else RejectTx(L, adminId.value, taskId.value, reason.value, now)
  }

  /** Approval moves the task's cost from the client's locked funds to the
      platform: the system total is unchanged. */
  lemma ApproveConservesFunds(L: Ledger, adminId: Id, taskId: nat, now: int)
    requires ApproveTx(L, adminId, taskId, now).Ok?
    ensures TotalFunds(ApproveTx(L, adminId, taskId, now).value.wallets) == TotalFunds(L.wallets)
  {
    var t := L.tasks[taskId];
    var ws2 := Adjust(L.wallets, t.clientId, 0, 0, -t.totalCost);
    AdjustTotal(L.wallets, t.clientId, 0, 0, -t.totalCost);
    AdjustTotal(ws2, L.adminUser.value, 0, t.totalCost, 0);
  }

  /** Rejection returns the task's cost to the client's unused balance: the
      client's holdings, and so the system total, are unchanged. */
  lemma RejectConservesFunds(L: Ledger, adminId: Id, taskId: nat, reason: string, now: int)
    requires RejectTx(L, adminId, taskId, reason, now).Ok?
    ensures TotalFunds(RejectTx(L, adminId, taskId, reason, now).value.wallets) == TotalFunds(L.wallets)
  {
    var t := L.tasks[taskId];
    AdjustTotal(L.wallets, t.clientId, 0, t.totalCost, -t.totalCost);
  }

  /** Under the invariant the locked-funds and client-wallet guards never fire:
      approving a task that waits for approval fails only when there is no ADMIN
      user, and rejecting it, with any reason, always succeeds. */
  lemma ApproveGuardsRedundant(L: Ledger, adminId: Id, taskId: nat, reason: string, now: int)
    requires Inv(L)
    requires taskId in L.tasks && L.tasks[taskId].status == PendingAdminApproval
    ensures ApproveTx(L, adminId, taskId, now).Ok? <==> L.adminUser.Some?
    ensures RejectTx(L, adminId, taskId, reason, now).Ok?
  {
    PendingTaskIsCovered(L, taskId);
  }

  /** The pending cost of every client after `taskId` leaves the pending state. */
  lemma PendingCostAfterDecision(L: Ledger, taskId: nat, t': Task, u: Id)
    requires taskId in L.tasks && L.tasks[taskId].status == PendingAdminApproval
    requires t'.status != PendingAdminApproval
    ensures PendingCost(L.tasks[taskId := t'], u)
         == PendingCost(L.tasks, u) - (if L.tasks[taskId].clientId == u then L.tasks[taskId].totalCost else 0)
  {
    PendingCostUpdate(L.tasks, taskId, t', u);
  }

  /** A decision that takes one pending task out of the pending state and lowers
      its client's locked funds by the task's cost keeps the invariant. */
  lemma InvAfterDecision(L: Ledger, L': Ledger, taskId: nat, t': Task)
    requires Inv(L)
    requires taskId in L.tasks && L.tasks[taskId].status == PendingAdminApproval
    requires t'.status != PendingAdminApproval
    requires t'.clientId == L.tasks[taskId].clientId && t'.totalCost == L.tasks[taskId].totalCost
    requires L'.tasks == L.tasks[taskId := t'] && L'.nextTaskId == L.nextTaskId
    requires L.wallets.Keys <= L'.wallets.Keys
    requires forall u :: u in L'.wallets ==> NonNegative(L'.wallets[u])
    requires forall u :: u in L'.wallets ==>
      L'.wallets[u].lockedFunds
        == WalletOrEmpty(L, u).lockedFunds - (if u == t'.clientId then t'.totalCost else 0)
    ensures Inv(L')
  {
    forall u | u in L'.wallets
      ensures L'.wallets[u].lockedFunds == PendingCost(L'.tasks, u)
    {
      PendingCostAfterDecision(L, taskId, t', u);
      if u !in L.wallets {
        PendingCostNoTasks(L.tasks, u);
      }
    }
    forall k | k in L'.tasks
      ensures k < L'.nextTaskId && L'.tasks[k].clientId in L'.wallets && L'.tasks[k].totalCost >= MinTaskCostCents
    {
      assert k in L.tasks;
    }
  }

  /** The wallets after approval's two updates: balances stay non-negative and
      only the client's locked funds move, down by the task's cost. */
  lemma ApprovalWallets(L: Ledger, c: Id, a: Id, cost: int)
    requires forall u :: u in L.wallets ==> NonNegative(L.wallets[u])
    requires c in L.wallets && L.wallets[c].lockedFunds >= cost >= 0
    ensures var ws4 := Adjust(Adjust(L.wallets, c, 0, 0, -cost), a, 0, cost, 0);
      forall u :: u in ws4 ==>
        && NonNegative(ws4[u])
        && ws4[u].lockedFunds == WalletOrEmpty(L, u).lockedFunds - (if u == c then cost else 0)
  {
    var ws2 := Adjust(L.wallets, c, 0, 0, -cost);
    var ws4 := Adjust(ws2, a, 0, cost, 0);
    forall u | u in ws4
      ensures NonNegative(ws4[u])
      ensures ws4[u].lockedFunds == WalletOrEmpty(L, u).lockedFunds - (if u == c then cost else 0)
    {
      assert u in ws2 ==>
        (NonNegative(ws2[u]) && ws2[u].lockedFunds == WalletOrEmpty(L, u).lockedFunds - (if u == c then cost else 0));
    }
  }

  /** Approval keeps the invariant: the client's locked funds shrink by exactly
      the cost of the task that stopped pending, and no balance goes negative. */
  lemma ApprovePreservesInv(L: Ledger, adminId: Id, taskId: nat, now: int)
    requires Inv(L)
    requires ApproveTx(L, adminId, taskId, now).Ok?
    ensures Inv(ApproveTx(L, adminId, taskId, now).value)
  {
    var t := L.tasks[taskId];
    var a := L.adminUser.value;
    var ws4 := Adjust(Adjust(L.wallets, t.clientId, 0, 0, -t.totalCost), a, 0, t.totalCost, 0);
    var t' := t.(status := Live, adminEditedBy := Some(adminId), adminEditedAt := Some(now));
    var L' := L.(wallets := ws4,
                 entries := L.entries + [Entry(a, Escrow, t.totalCost, None), Entry(t.clientId, Unlock, t.totalCost, None)],
                 tasks := L.tasks[taskId := t']);
    assert ApproveTx(L, adminId, taskId, now) == Ok(L');
    ApprovalWallets(L, t.clientId, a, t.totalCost);
    InvAfterDecision(L, L', taskId, t');
  }

  /** Rejection keeps the invariant likewise. */
  lemma RejectPreservesInv(L: Ledger, adminId: Id, taskId: nat, reason: string, now: int)
    requires Inv(L)
    requires RejectTx(L, adminId, taskId, reason, now).Ok?
    ensures Inv(RejectTx(L, adminId, taskId, reason, now).value)
  {
    var L' := RejectTx(L, adminId, taskId, reason, now).value;
    InvAfterDecision(L, L', taskId, L'.tasks[taskId]);
  }

  /** A decided task can be decided only once: after an approval or a rejection,
      every further approval or rejection of the same task fails and changes nothing. */
  lemma DecisionIsFinal(L: Ledger, adminId: Id, taskId: nat, reason: string, now: int,
                        adminId2: Id, reason2: string, now2: int)
    ensures ApproveTx(L, adminId, taskId, now).Ok? ==>
      var L' := ApproveTx(L, adminId, taskId, now).value;
      && ApproveTx(L', adminId2, taskId, now2) == Err(TaskNotPending)
      && RejectTx(L', adminId2, taskId, reason2, now2) == Err(TaskNotPending)
    ensures RejectTx(L, adminId, taskId, reason, now).Ok? ==>
      var L' := RejectTx(L, adminId, taskId, reason, now).value;
      && ApproveTx(L', adminId2, taskId, now2) == Err(TaskNotPending)
      && RejectTx(L', adminId2, taskId, reason2, now2) == Err(TaskNotPending)
  {
  }

  /** The entries of one wallet, in log order. */
  function EntriesOf(es: seq<Entry>, u: Id): (r: seq<Entry>)
    ensures |r| <= |es|
    ensures forall i :: 0 <= i < |r| ==> r[i].walletOf == u
  {
    if es == [] then []
    else (if es[0].walletOf == u then [es[0]] else []) + EntriesOf(es[1..], u)
  }

  lemma {:induction false} EntriesOfAppend(es: seq<Entry>, more: seq<Entry>, u: Id)
    ensures EntriesOf(es + more, u) == EntriesOf(es, u) + EntriesOf(more, u)
  {
    if es == [] {
      assert es + more == more;
    } else {
      assert (es + more)[1..] == es[1..] + more;
      EntriesOfAppend(es[1..], more, u);
    }
  }

  /** An UNLOCK entry does not say what happened to the client's balances: approving
      and rejecting the same task append the very same entries to the client's log,
      yet leave the client's unused balance differing by the task's cost. */
  lemma UnlockEntryIsAmbiguous(L: Ledger, adminId: Id, taskId: nat, reason: string, now: int)
    requires ApproveTx(L, adminId, taskId, now).Ok?
    requires L.tasks[taskId].clientId != L.adminUser.value
    ensures RejectTx(L, adminId, taskId, reason, now).Ok?
    ensures var c := L.tasks[taskId].clientId;
      var A := ApproveTx(L, adminId, taskId, now).value;
      var R := RejectTx(L, adminId, taskId, reason, now).value;
      && EntriesOf(A.entries, c) == EntriesOf(R.entries, c)
      && R.wallets[c].unusedBalance - A.wallets[c].unusedBalance == L.tasks[taskId].totalCost
      && R.wallets[c].lockedFunds == A.wallets[c].lockedFunds
  {
    var t := L.tasks[taskId];
    var c := t.clientId;
    var a := L.adminUser.value;
    var A := ApproveTx(L, adminId, taskId, now).value;
    var R := RejectTx(L, adminId, taskId, reason, now).value;
    EntriesOfAppend(L.entries, [Entry(a, Escrow, t.totalCost, None), Entry(c, Unlock, t.totalCost, None)], c);
    EntriesOfAppend(L.entries, [Entry(c, Unlock, t.totalCost, None)], c);
    assert EntriesOf([Entry(a, Escrow, t.totalCost, None), Entry(c, Unlock, t.totalCost, None)], c)
        == [Entry(c, Unlock, t.totalCost, None)];
  }
}

=== FILE: completion.dfy ===
/** POST /approve-completion (routes/task.routes.js): paying a worker for an
    approved task completion. This route uses its own wallet shape (`balance`,
    `locked`, `pendingEarnings`) and runs its writes without a transaction. */
module CompletionRoute {
  import opened Types
  import opened MapSum

  datatype WorkerWallet = WorkerWallet(balance: int, locked: int, pendingEarnings: int)

  /** A task completion, with the reward of its task (`completion.task.reward`), in cents. */
  datatype Completion = Completion(workerId: Id, taskReward: int, approved: bool, rewardPaid: Option<int>)

  /** `platformEarnings` holds the `totalEarnings` of every platformBalance row, in
      mills (tenths of a cent): the platform cut `reward * 0.10` is not rounded, and
      a tenth of a whole number of cents is a whole number of mills. */
  datatype PayoutStore = PayoutStore(
    wallets: map<Id, WorkerWallet>,
    completions: map<Id, Completion>,
    platformEarnings: seq<int>)

  datatype PayoutError =
    | MissingCompletionId   // 400
    | CompletionNotFound    // 404
    | AlreadyApproved       // 400
    | WorkerWalletMissing   // 500: `wallet.update` throws before anything is written

  datatype PayoutReceipt = PayoutReceipt(store: PayoutStore, payout: int, platformCutMills: int)

  /** The handler: refuse a missing id, an unknown completion and one already
      approved; otherwise pay the worker the full task reward, release the same
      amount from its locked and pending earnings, mark the completion approved
      with the reward paid, and add the platform cut to every platformBalance row. */
  function ApproveCompletion(S: PayoutStore, completionId: Option<Id>): (r: Result<PayoutReceipt, PayoutError>)
    ensures completionId.None? ==> r == Err(MissingCompletionId)
    ensures completionId.Some? && completionId.value !in S.completions ==> r == Err(CompletionNotFound)
    ensures completionId.Some? && completionId.value in S.completions && S.completions[completionId.value].approved
            ==> r == Err(AlreadyApproved)
    ensures r.Ok? <==>
      && completionId.Some? && completionId.value in S.completions
      && !S.completions[completionId.value].approved
      && S.completions[completionId.value].workerId in S.wallets
    ensures r.Ok? ==>
      var c := S.completions[completionId.value];
      var w := S.wallets[c.workerId];
      var S' := r.value.store;
      && r.value.payout == c.taskReward
      && r.value.platformCutMills == c.taskReward
      && S'.wallets == S.wallets[c.workerId := WorkerWallet(w.balance + c.taskReward,
                                                            w.locked - c.taskReward,
                                                            w.pendingEarnings - c.taskReward)]
      && S'.completions == S.completions[completionId.value := c.(approved := true, rewardPaid := Some(c.taskReward))]
      && |S'.platformEarnings| == |S.platformEarnings|
      && (forall i :: 0 <= i < |S.platformEarnings| ==> S'.platformEarnings[i] == S.platformEarnings[i] + c.taskReward)
  {
    if completionId.None? then
      Err(MissingCompletionId)
    else if completionId.value !in S.completions then
      Err(CompletionNotFound)
    else
      var c := S.completions[completionId.value];
      if c.approved then
        Err(AlreadyApproved)
      else if c.workerId !in S.wallets then
        Err(WorkerWalletMissing)
      else
        var reward := c.taskReward;
        var payout := reward;
        var cutMills := reward;
        var w := S.wallets[c.workerId];
        var wallets := S.wallets[c.workerId := WorkerWallet(w.balance + payout, w.locked - reward, w.pendingEarnings - reward)];
        var completions := S.completions[completionId.value := c.(approved := true, rewardPaid := Some(payout))];
        var earnings := seq(|S.platformEarnings|, i requires 0 <= i < |S.platformEarnings| => S.platformEarnings[i] + cutMills);
        Ok(PayoutReceipt(PayoutStore(wallets, completions, earnings), payout, cutMills))
  }

  /** A completion can be paid only once: right after a successful approval the
      same request is refused and changes nothing. */
  lemma PaidAtMostOnce(S: PayoutStore, id: Id)
    requires ApproveCompletion(S, Some(id)).Ok?
    ensures ApproveCompletion(ApproveCompletion(S, Some(id)).value.store, Some(id)) == Err(AlreadyApproved)
  {
  }

  function WalletBalance(w: WorkerWallet): int { w.balance }

  function PaidReward(c: Completion): int { if c.approved then c.taskReward else 0 }

  /** What the workers' balances hold, in cents. */
  ghost function Balances(S: PayoutStore): int { Sum(S.wallets, WalletBalance) }

  /** The rewards of every approved completion, in cents. */
  ghost function ApprovedRewards(S: PayoutStore): int { Sum(S.completions, PaidReward) }

  /** Each successful approval raises the workers' balances by exactly the reward
      of the one completion it marks approved. */
  lemma ApprovalPaysItsReward(S: PayoutStore, id: Option<Id>)
    requires ApproveCompletion(S, id).Ok?
    ensures var S' := ApproveCompletion(S, id).value.store;
      Balances(S') - ApprovedRewards(S') == Balances(S) - ApprovedRewards(S)
  {
    var c := S.completions[id.value];
    var S' := ApproveCompletion(S, id).value.store;
    SumUpdate(S.wallets, WalletBalance, c.workerId, S'.wallets[c.workerId]);
    SumUpdate(S.completions, PaidReward, id.value, S'.completions[id.value]);
  }

  /** A series of completion approvals, each refused one leaving the store as it was. */
  function ApproveAll(S: PayoutStore, ids: seq<Option<Id>>): (S': PayoutStore)
    ensures S'.wallets.Keys == S.wallets.Keys && S'.completions.Keys == S.completions.Keys
    decreases |ids|
  {
    if ids == [] then S
    else
      var r := ApproveCompletion(S, ids[0]);
      ApproveAll(if r.Ok? then r.value.store else S, ids[1..])
  }

  /** Over any series of approvals the workers' balances grow by exactly the rewards
      of the completions that became approved (each counted once), and no
      completion is ever un-approved. */
  lemma {:induction false} ApproveAllPaysEachOnce(S: PayoutStore, ids: seq<Option<Id>>)
    ensures var S' := ApproveAll(S, ids);
      && Balances(S') - Balances(S) == ApprovedRewards(S') - ApprovedRewards(S)
      && forall k :: k in S.completions && S.completions[k].approved ==> S'.completions[k].approved
    decreases |ids|
  {
    if ids != [] {
      var r := ApproveCompletion(S, ids[0]);
      var next := if r.Ok? then r.value.store else S;
      if r.Ok? {
        ApprovalPaysItsReward(S, ids[0]);
      }
      ApproveAllPaysEachOnce(next, ids[1..]);
    }
  }

  /** Nothing stops `locked` and `pendingEarnings` going negative: the route has
      no guard on them. */
  lemma LockedIsUnguarded()
    ensures var S := PayoutStore(map["w" := WorkerWallet(0, 0, 0)],
                                 map["c" := Completion("w", 100, false, None)], [0]);
      var r := ApproveCompletion(S, Some("c"));
      && r.Ok?
      && r.value.store.wallets["w"] == WorkerWallet(100, -100, -100)
      && r.value.store.platformEarnings == [100]
  {
  }
}

=== FILE: deposit.dfy ===
/** POST /api/client/deposit (routes/deposit.js). */
module DepositRoute {
  import opened Types
  import opened Money
  import opened Ledger

  datatype DepositReceipt = DepositReceipt(ledger: Ledger, fee: nat, netAmount: nat, depositAmount: nat)

  /** The transaction: credit the client (creating its wallet if missing) with the
      net amount while counting the gross as deposited, log DEPOSIT, then credit
      the platform wallet (creating it if missing) with the fee and log FEE.
      With no ADMIN user the callback throws and the client credit is rolled back. */
  function DepositTx(L: Ledger, user: Id, amt: nat): (r: Result<DepositReceipt, LedgerError>)
    ensures r.Err? <==> L.adminUser.None?
    ensures r.Err? ==> r.error == AdminUserMissing
    ensures r.Ok? ==>
      var a := L.adminUser.value;
      var L' := r.value.ledger;
      var c := WalletOrEmpty(L, user);
      var p := WalletOrEmpty(L, a);
      && r.value.depositAmount == amt
      && r.value.fee + r.value.netAmount == amt
      && 10 * r.value.fee - 5 <= amt < 10 * r.value.fee + 5
      && L'.wallets.Keys == L.wallets.Keys + {user, a}
      && L'.wallets[user].totalDeposited == c.totalDeposited + amt
      && L'.wallets[user].lockedFunds == c.lockedFunds
      && (user != a ==>
            && L'.wallets[user].unusedBalance == c.unusedBalance + r.value.netAmount
            && L'.wallets[a] == p.(unusedBalance := p.unusedBalance + r.value.fee))
      && (user == a ==> L'.wallets[user].unusedBalance == c.unusedBalance + amt)
      && (forall v :: v in L.wallets && v != user && v != a ==> L'.wallets[v] == L.wallets[v])
      && L'.entries == L.entries + [Entry(user, EntryKind.Deposit, amt, Some(r.value.fee)), Entry(a, Fee, r.value.fee, None)]
      && L'.tasks == L.tasks && L'.adminUser == L.adminUser && L'.nextTaskId == L.nextTaskId
  {
    var s := Split(amt);
    var ws2 := Adjust(L.wallets, user, amt, s.net, 0);
    var entries2 := L.entries + [Entry(user, EntryKind.Deposit, amt, Some(s.fee))];
    if L.adminUser.None? then
      Err(AdminUserMissing)
    else
      var a := L.adminUser.value;
      var ws4 := Adjust(ws2, a, 0, s.fee, 0);
      var entries4 := entries2 + [Entry(a, Fee, s.fee, None)];
      Ok(DepositReceipt(L.(wallets := ws4, entries := entries4), s.fee, s.net, amt))
  }

  /** The whole route: a missing user id or an amount that does not parse is a
      400 before any database access; otherwise the transaction runs. */
  function Deposit(L: Ledger, userId: Option<Id>, amount: Option<NumInput>): (r: Result<DepositReceipt, LedgerError>)
    ensures r.Ok? <==> userId.Some? && ParseAmount(amount).Some? && L.adminUser.Some?
    ensures (userId.None? || ParseAmount(amount).None?) ==> r == Err(InvalidRequest)
    ensures r.Ok? ==> r.value.depositAmount > 0 && r == DepositTx(L, userId.value, ParseAmount(amount).value)
  {
    var amt := ParseAmount(amount);
    if userId.None? || amt.None? then Err(InvalidRequest)
    else DepositTx(L, userId.value, amt.value)
  }

  /** A deposit adds exactly the gross amount to the funds held in the system:
      the net to the client and the fee to the platform. */
  lemma DepositConservesFunds(L: Ledger, user: Id, amt: nat)
    requires L.adminUser.Some?
    ensures TotalFunds(DepositTx(L, user, amt).value.ledger.wallets) == TotalFunds(L.wallets) + amt
  {
    var s := Split(amt);
    var ws2 := Adjust(L.wallets, user, amt, s.net, 0);
    AdjustTotal(L.wallets, user, amt, s.net, 0);
    AdjustTotal(ws2, L.adminUser.value, 0, s.fee, 0);
  }

  /** A deposit keeps every balance non-negative and the locked funds matched to pending tasks. */
  lemma DepositPreservesInv(L: Ledger, user: Id, amt: nat)
    requires Inv(L)
    requires L.adminUser.Some?
    ensures Inv(DepositTx(L, user, amt).value.ledger)
  {
    var s := Split(amt);
    var ws2 := Adjust(L.wallets, user, amt, s.net, 0);
    var ws4 := Adjust(ws2, L.adminUser.value, 0, s.fee, 0);
    var L' := DepositTx(L, user, amt).value.ledger;
    assert L'.wallets == ws4;
    forall u | u in ws4
      ensures NonNegative(ws4[u]) && ws4[u].lockedFunds == WalletOrEmpty(L, u).lockedFunds
    {
      assert u in ws2 ==> NonNegative(ws2[u]) && ws2[u].lockedFunds == WalletOrEmpty(L, u).lockedFunds;
    }
    InvAfterBalanceChange(L, L');
  }
}

=== FILE: escrow_run.dfy ===
/** Any sequence of wallet-route calls, one after another, each applied
    all-or-nothing: what the routes together guarantee about the ledger. */
module EscrowRun {
  import opened Types
  import opened Money
  import opened Ledger
  import DepositRoute
  import WithdrawRoute
  import TaskRoute
  import AdminTaskRoute

  /** One request to one of the wallet routes. */
  datatype Op =
    | DepositOp(userId: Option<Id>, amount: Option<NumInput>)
    | WithdrawOp(userId: Option<Id>, amount: Option<NumInput>)
    | CreateTaskOp(clientId: Option<Id>, title: Option<string>, reward: Option<NumInput>,
                   workers: Option<NumInput>, now: int)
    | ApproveOp(adminId: Option<Id>, taskId: Option<nat>, now: int)
    | RejectOp(adminId: Option<Id>, taskId: Option<nat>, reason: Option<string>, now: int)

  /** The ledger after a request, and the money that entered (positive) or left
      (negative) the system through it: deposits bring in their gross amount,
      withdrawals send out their payout. A failed request keeps the old ledger. */
  datatype Outcome = Outcome(ledger: Ledger, inflow: int)

  function Step(L: Ledger, op: Op): (o: Outcome)
    ensures o.ledger.adminUser == L.adminUser
    ensures op.CreateTaskOp? || op.ApproveOp? || op.RejectOp? ==> o.inflow == 0
    ensures op.DepositOp? ==> o.inflow >= 0
    ensures op.WithdrawOp? ==> o.inflow <= 0
  {
    match op
    case DepositOp(u, amount) =>
      var r := DepositRoute.Deposit(L, u, amount);
      if r.Ok? then Outcome(r.value.ledger, r.value.depositAmount) else Outcome(L, 0)
    case WithdrawOp(u, amount) =>
      var r := WithdrawRoute.Withdraw(L, u, amount);
      if r.Ok? then Outcome(r.value.ledger, -(r.value.payoutAmount as int)) else Outcome(L, 0)
    case CreateTaskOp(c, title, reward, workers, now) =>
      var r := TaskRoute.CreateTask(L, c, title, reward, workers, now);
      if r.Ok? then Outcome(r.value.ledger, 0) else Outcome(L, 0)
    case ApproveOp(a, id, now) =>
      var r := AdminTaskRoute.ApproveTask(L, a, id, now);
      if r.Ok? then Outcome(r.value, 0) else Outcome(L, 0)
    case RejectOp(a, id, reason, now) =>
      var r := AdminTaskRoute.RejectTask(L, a, id, reason, now);
      if r.Ok? then Outcome(r.value, 0) else Outcome(L, 0)
  }

  /** The requests applied in order; the inflows add up. */
  function Run(L: Ledger, ops: seq<Op>): (o: Outcome)
    ensures o.ledger.adminUser == L.adminUser
    decreases |ops|
  {
    if ops == [] then Outcome(L, 0)
    else
      var first := Step(L, ops[0]);
      var rest := Run(first.ledger, ops[1..]);
      Outcome(rest.ledger, first.inflow + rest.inflow)
  }

  /** One request changes the funds held in the system by exactly its inflow:
      internal transfers (locking, escrow, release, fees) create or destroy nothing. */
  lemma StepConservesFunds(L: Ledger, op: Op)
    ensures TotalFunds(Step(L, op).ledger.wallets) == TotalFunds(L.wallets) + Step(L, op).inflow
  {
    match op
    case DepositOp(u, amount) =>
      if DepositRoute.Deposit(L, u, amount).Ok? {
        DepositRoute.DepositConservesFunds(L, u.value, ParseAmount(amount).value);
      }
    case WithdrawOp(u, amount) =>
      if WithdrawRoute.Withdraw(L, u, amount).Ok? {
        WithdrawRoute.WithdrawConservesFunds(L, u.value, ParseAmount(amount).value);
      }
    case CreateTaskOp(c, title, reward, workers, now) =>
      var r := TaskRoute.CreateTask(L, c, title, reward, workers, now);
      if r.Ok? {
        var rw := reward.value.v;
        var n := workers.value.v;
        TaskRoute.LockConservesFunds(L, c.value, title.value, rw, n, TaskRoute.TaskCost(rw, n), now);
      }
    case ApproveOp(a, id, now) =>
      if AdminTaskRoute.ApproveTask(L, a, id, now).Ok? {
        AdminTaskRoute.ApproveConservesFunds(L, a.value, id.value, now);
      }
    case RejectOp(a, id, reason, now) =>
      if AdminTaskRoute.RejectTask(L, a, id, reason, now).Ok? {
        AdminTaskRoute.RejectConservesFunds(L, a.value, id.value, reason.value, now);
      }
  }

  /** The shape of "appends to the log and keeps every decided task's status". */
  ghost predicate AppendsAndKeepsDecisions(L: Ledger, L': Ledger) {
    && L.entries <= L'.entries
    && forall id :: id in L.tasks && L.tasks[id].status != PendingAdminApproval ==>
         id in L'.tasks && L'.tasks[id].status == L.tasks[id].status
  }

  /** Every task already there is still there, unchanged. */
  ghost predicate KeepsEveryTask(L: Ledger, L': Ledger) {
    forall k :: k in L.tasks ==> k in L'.tasks && L'.tasks[k] == L.tasks[k]
  }

  /** The same task ids, and the only task that may differ is the one named by
      the request, which was waiting for approval. */
  ghost predicate ChangesOnlyNamedPending(L: Ledger, L': Ledger, id: Option<nat>) {
    && L'.tasks.Keys == L.tasks.Keys
    && forall k :: k in L.tasks && L'.tasks[k] != L.tasks[k] ==>
         id == Some(k) && L.tasks[k].status == PendingAdminApproval
  }

  /** Adding a task under an unused id keeps every other task. */
  lemma AddFresh(L: Ledger, L': Ledger, k0: nat, t: Task)
    requires k0 !in L.tasks
    requires L'.tasks == L.tasks[k0 := t]
    ensures KeepsEveryTask(L, L')
  {
  }

  /** Overwriting one pending task changes no other. */
  lemma OverwritePending(L: Ledger, L': Ledger, k0: nat, t': Task)
    requires k0 in L.tasks && L.tasks[k0].status == PendingAdminApproval
    requires L'.tasks == L.tasks[k0 := t']
    ensures ChangesOnlyNamedPending(L, L', Some(k0))
  {
  }

  /** A deposit request keeps the invariant, only appends, and touches no task. */
  lemma DepositStepSound(L: Ledger, u: Option<Id>, amount: Option<NumInput>)
    requires Inv(L)
    ensures Inv(Step(L, DepositOp(u, amount)).ledger)
    ensures AppendsAndKeepsDecisions(L, Step(L, DepositOp(u, amount)).ledger)
    ensures Step(L, DepositOp(u, amount)).ledger.tasks == L.tasks
  {
    if DepositRoute.Deposit(L, u, amount).Ok? {
      DepositRoute.DepositPreservesInv(L, u.value, ParseAmount(amount).value);
    }
  }

  /** A withdrawal request keeps the invariant, only appends, and touches no task. */
  lemma WithdrawStepSound(L: Ledger, u: Option<Id>, amount: Option<NumInput>)
    requires Inv(L)
    ensures Inv(Step(L, WithdrawOp(u, amount)).ledger)
    ensures AppendsAndKeepsDecisions(L, Step(L, WithdrawOp(u, amount)).ledger)
    ensures Step(L, WithdrawOp(u, amount)).ledger.tasks == L.tasks
  {
    if WithdrawRoute.Withdraw(L, u, amount).Ok? {
      WithdrawRoute.WithdrawPreservesInv(L, u.value, ParseAmount(amount).value);
    }
  }

  /** A task submission keeps the invariant, only appends, and (its id being
      fresh) leaves every existing task alone. */
  lemma CreateTaskStepSound(L: Ledger, c: Option<Id>, title: Option<string>,
                            reward: Option<NumInput>, workers: Option<NumInput>, now: int)
    requires Inv(L)
    ensures Inv(Step(L, CreateTaskOp(c, title, reward, workers, now)).ledger)
    ensures AppendsAndKeepsDecisions(L, Step(L, CreateTaskOp(c, title, reward, workers, now)).ledger)
    ensures KeepsEveryTask(L, Step(L, CreateTaskOp(c, title, reward, workers, now)).ledger)
  {
    var r := TaskRoute.CreateTask(L, c, title, reward, workers, now);
    if r.Ok? {
      var rw := reward.value.v;
      var n := workers.value.v;
      var cost := TaskRoute.TaskCost(rw, n);
      assert r == TaskRoute.LockTx(L, c.value, title.value, rw, n, cost, now);
      TaskRoute.LockPreservesInv(L, c.value, title.value, rw, n, cost, now);
      AddFresh(L, r.value.ledger, L.nextTaskId,
        Task(c.value, c.value, title.value, rw, n, cost, PendingAdminApproval, now, None, None, None));
    }
  }

  /** An approval keeps the invariant, only appends, and changes no task but the
      named one, and that one only if it was pending. */
  lemma ApproveStepSound(L: Ledger, a: Option<Id>, id: Option<nat>, now: int)
    requires Inv(L)
    ensures Inv(Step(L, ApproveOp(a, id, now)).ledger)
    ensures AppendsAndKeepsDecisions(L, Step(L, ApproveOp(a, id, now)).ledger)
    ensures ChangesOnlyNamedPending(L, Step(L, ApproveOp(a, id, now)).ledger, id)
  {
    var r := AdminTaskRoute.ApproveTask(L, a, id, now);
    if r.Ok? {
      AdminTaskRoute.ApprovePreservesInv(L, a.value, id.value, now);
      var t := L.tasks[id.value];
      OverwritePending(L, r.value, id.value, t.(status := Live, adminEditedBy := a, adminEditedAt := Some(now)));
    }
  }

  /** A rejection keeps the invariant, only appends, and changes no task but the
      named one, and that one only if it was pending. */
  lemma RejectStepSound(L: Ledger, a: Option<Id>, id: Option<nat>, reason: Option<string>, now: int)
    requires Inv(L)
    ensures Inv(Step(L, RejectOp(a, id, reason, now)).ledger)
    ensures AppendsAndKeepsDecisions(L, Step(L, RejectOp(a, id, reason, now)).ledger)
    ensures ChangesOnlyNamedPending(L, Step(L, RejectOp(a, id, reason, now)).ledger, id)
  {
    var r := AdminTaskRoute.RejectTask(L, a, id, reason, now);
    if r.Ok? {
      AdminTaskRoute.RejectPreservesInv(L, a.value, id.value, reason.value, now);
      var t := L.tasks[id.value];
      OverwritePending(L, r.value, id.value,
        t.(status := Closed, rejectionReason := reason, adminEditedBy := a, adminEditedAt := Some(now)));
    }
  }

  /** Every request keeps the ledger invariant. */
  lemma StepPreservesInv(L: Ledger, op: Op)
    requires Inv(L)
    ensures Inv(Step(L, op).ledger)
  {
    match op
    case DepositOp(u, amount) => DepositStepSound(L, u, amount);
    case WithdrawOp(u, amount) => WithdrawStepSound(L, u, amount);
    case CreateTaskOp(c, title, reward, workers, now) => CreateTaskStepSound(L, c, title, reward, workers, now);
    case ApproveOp(a, id, now) => ApproveStepSound(L, a, id, now);
    case RejectOp(a, id, reason, now) => RejectStepSound(L, a, id, reason, now);
  }

  /** Every request only appends to the log, and a task that is no longer
      waiting for approval keeps its status: LIVE and CLOSED are final here. */
  lemma StepAppendsAndKeepsDecisions(L: Ledger, op: Op)
    requires Inv(L)
    ensures L.entries <= Step(L, op).ledger.entries
    ensures forall id :: id in L.tasks && L.tasks[id].status != PendingAdminApproval ==>
      id in Step(L, op).ledger.tasks && Step(L, op).ledger.tasks[id].status == L.tasks[id].status
  {
    match op
    case DepositOp(u, amount) => DepositStepSound(L, u, amount);
    case WithdrawOp(u, amount) => WithdrawStepSound(L, u, amount);
    case CreateTaskOp(c, title, reward, workers, now) => CreateTaskStepSound(L, c, title, reward, workers, now);
    case ApproveOp(a, id, now) => ApproveStepSound(L, a, id, now);
    case RejectOp(a, id, reason, now) => RejectStepSound(L, a, id, reason, now);
  }

  /** Conservation over any run: the funds held in all wallets change only by
      what deposits brought in and withdrawals paid out. */
  lemma {:induction false} RunConservesFunds(L: Ledger, ops: seq<Op>)
    ensures TotalFunds(Run(L, ops).ledger.wallets) == TotalFunds(L.wallets) + Run(L, ops).inflow
    decreases |ops|
  {
    if ops != [] {
      StepConservesFunds(L, ops[0]);
      RunConservesFunds(Step(L, ops[0]).ledger, ops[1..]);
    }
  }

  /** The invariant holds after any run that starts from it. */
  lemma {:induction false} RunPreservesInv(L: Ledger, ops: seq<Op>)
    requires Inv(L)
    ensures Inv(Run(L, ops).ledger)
    decreases |ops|
  {
    if ops != [] {
      StepPreservesInv(L, ops[0]);
      RunPreservesInv(Step(L, ops[0]).ledger, ops[1..]);
    }
  }

  /** The log is append-only over any run, and decided tasks stay decided. */
  lemma {:induction false} RunAppendsAndKeepsDecisions(L: Ledger, ops: seq<Op>)
    requires Inv(L)
    ensures L.entries <= Run(L, ops).ledger.entries
    ensures forall id :: id in L.tasks && L.tasks[id].status != PendingAdminApproval ==>
      id in Run(L, ops).ledger.tasks && Run(L, ops).ledger.tasks[id].status == L.tasks[id].status
    decreases |ops|
  {
    if ops != [] {
      StepAppendsAndKeepsDecisions(L, ops[0]);
      StepPreservesInv(L, ops[0]);
      RunAppendsAndKeepsDecisions(Step(L, ops[0]).ledger, ops[1..]);
    }
  }

  /** From a fresh database, no sequence of requests makes any balance negative,
      and the funds in the system are exactly the net inflow. */
  lemma FromEmpty(admin: Option<Id>, ops: seq<Op>)
    ensures var L := Run(Initial(admin), ops).ledger;
      && (forall u :: u in L.wallets ==>
            L.wallets[u].unusedBalance >= 0 && L.wallets[u].lockedFunds >= 0)
      && TotalFunds(L.wallets) == Run(Initial(admin), ops).inflow
  {
    RunPreservesInv(Initial(admin), ops);
    RunConservesFunds(Initial(admin), ops);
  }
}

=== FILE: escrow_scenarios.dfy ===
/** Concrete runs of the task escrow flow, in cents. */
module EscrowScenarios {
  import opened Types
  import opened Money
  import opened Ledger
  import TaskRoute
  import AdminTaskRoute

  const Client: Id := "client"
  const Platform: Id := "platform"
  const Admin: Id := "admin"

  /** A client with `unused` cents unused and a seeded ADMIN user with no wallet yet. */
  function Start(unused: int): Ledger {
    Ledger(map[Client := Wallet(unused, unused, 0)], map[], [], Some(Platform), 1)
  }

  /** Submitting 5 workers at 10.00 locks 50.00; approving it empties the lock
      and credits 50.00 of escrow to the platform, and the task goes LIVE. */
  lemma SubmitThenApprove()
    ensures var c := TaskRoute.CreateTask(Start(10000), Some(Client), Some("survey"),
                                          Some(Finite(10.0)), Some(Finite(5.0)), 1);
      && c.Ok? && c.value.taskId == 1
      && c.value.ledger.wallets[Client] == Wallet(10000, 5000, 5000)
      && var a := AdminTaskRoute.ApproveTask(c.value.ledger, Some(Admin), Some(1), 2);
      && a.Ok?
      && a.value.wallets[Client] == Wallet(10000, 5000, 0)
      && a.value.wallets[Platform] == Wallet(0, 5000, 0)
      && a.value.tasks[1].status == Live
      && a.value.tasks[1].adminEditedBy == Some(Admin)
  {
    assert TaskRoute.TaskCost(10.0, 5.0) == 5000 by {
      assert (10.0 * 5.0 * 100.0 + 0.5).Floor == 5000;
    }
  }

  /** Rejecting the same task instead returns the 50.00 to the unused balance. */
  lemma SubmitThenReject()
    ensures var c := TaskRoute.CreateTask(Start(10000), Some(Client), Some("survey"),
                                          Some(Finite(10.0)), Some(Finite(5.0)), 1);
      && c.Ok?
      && var r := AdminTaskRoute.RejectTask(c.value.ledger, Some(Admin), Some(1), Some("spam"), 2);
      && r.Ok?
      && r.value.wallets[Client] == Wallet(10000, 10000, 0)
      && r.value.tasks[1].status == Closed
      && r.value.tasks[1].rejectionReason == Some("spam")
  {
    assert TaskRoute.TaskCost(10.0, 5.0) == 5000 by {
      assert (10.0 * 5.0 * 100.0 + 0.5).Floor == 5000;
    }
  }

  /** With 10.00 unused a 50.00 task is refused and nothing changes. */
  lemma SubmitWithoutFunds()
    ensures TaskRoute.CreateTask(Start(1000), Some(Client), Some("survey"),
                                 Some(Finite(10.0)), Some(Finite(5.0)), 1) == Err(InsufficientBalance)
  {
    assert TaskRoute.TaskCost(10.0, 5.0) == 5000 by {
      assert (10.0 * 5.0 * 100.0 + 0.5).Floor == 5000;
    }
  }

  /** A 4.99 task is refused before any wallet is read. */
  lemma SubmitBelowMinimum()
    ensures TaskRoute.CreateTask(Start(10000), Some(Client), Some("survey"),
                                 Some(Finite(4.99)), Some(Finite(1.0)), 1) == Err(BelowMinimumCost)
  {
    assert TaskRoute.TaskCost(4.99, 1.0) == 499 by {
      assert (4.99 * 1.0 * 100.0 + 0.5).Floor == 499;
    }
  }
}

=== FILE: interview.dfy ===
/** GET /api/interview/me and POST /api/interview/submit (routes/interview.js):
    the worker's side of the interview state machine. */
module InterviewRoute {
  import opened Types
  import opened Accounts
  import opened InterviewStore

  datatype MeView = MeView(role: string, interviewStatus: InterviewStatus, canRetryInterview: bool)

  /** A rejected worker may retry once three days have passed since its last
      submission; without a recorded submission time it may not. Given a recorded
      time, it is /submit's cooldown test, where a missing time reads as the epoch. */
  predicate CanRetry(u: User, now: int): (b: bool)
    ensures b ==> u.interviewStatus == Some(Rejected) && u.interviewSubmittedAt.Some?
    ensures u.interviewStatus == Some(Rejected) && u.interviewSubmittedAt.Some? ==>
      (b <==> now - u.interviewSubmittedAt.GetOr(0) >= ThreeDaysMs)
  {
    u.interviewStatus == Some(Rejected) && u.interviewSubmittedAt.Some?
    && now - u.interviewSubmittedAt.value >= ThreeDaysMs
  }

  /** /me: a missing user id is a 401, an unknown user a 404; otherwise the role,
      the status (an absent one reported as NOT_STARTED) and whether a retry is open. */
  function Me(S: Store, userId: Option<Id>, now: int): (r: Result<MeView, InterviewError>)
    ensures userId.None? ==> r == Err(Unauthorized)
    ensures userId.Some? && userId.value !in S.users ==> r == Err(UserNotFound)
    ensures userId.Some? && userId.value in S.users ==> r.Ok?
    ensures r.Ok? ==>
      var u := S.users[userId.value];
      && r.value.role == u.role
      && (u.interviewStatus.None? ==> r.value.interviewStatus == NotStarted)
      && (u.interviewStatus.Some? ==> r.value.interviewStatus == u.interviewStatus.value)
      && (r.value.canRetryInterview <==>
            r.value.interviewStatus == Rejected && u.interviewSubmittedAt.Some?
            && now - u.interviewSubmittedAt.value >= ThreeDaysMs)
  {
    if userId.None? then Err(Unauthorized)
    else if userId.value !in S.users then Err(UserNotFound)
    else
      var u := S.users[userId.value];
      Ok(MeView(u.role, u.interviewStatus.GetOr(NotStarted), CanRetry(u, now)))
  }

  /** /submit. Refused, in this order: a missing user id or answers; an unknown
      user; an APPROVED user; a REJECTED user less than three days after its last
      submission (a null submission time reads as the epoch, `new Date(null)`);
      a user with a review PENDING. A REJECTED user past the cooldown first has all
      its old interviews deleted. The new interview is created PENDING_REVIEW (the
      unique key on its user makes the create throw if one is still there), then
      the user is set PENDING_REVIEW with the submission time. */
  function Submit(S: Store, userId: Option<Id>, answers: Option<seq<string>>, now: int): (r: Reply<()>)
    ensures r.outcome.Err? ==> r.store == S
    ensures userId.None? || answers.None? ==> r.outcome == Err(MissingFields)
    ensures userId.Some? && answers.Some? && userId.value !in S.users ==> r.outcome == Err(UserNotFound)
    ensures userId.Some? && answers.Some? && userId.value in S.users ==>
      var u := S.users[userId.value];
      && (u.interviewStatus in {None, Some(NotStarted)} ==>
            (r.outcome.Ok? <==> IndexOfUser(S.interviews, userId.value).None?))
      && (u.interviewStatus == Some(Approved) ==> r.outcome == Err(AlreadyApproved))
      && (u.interviewStatus == Some(PendingReview) ==> r.outcome == Err(AlreadySubmitted))
      && (u.interviewStatus == Some(Rejected) ==>
            (r.outcome.Ok? <==> now - u.interviewSubmittedAt.GetOr(0) >= ThreeDaysMs))
    ensures r.outcome.Ok? ==>
      var id := userId.value;
      var S' := r.store;
      && id in S.users
      && S'.users == S.users[id := S.users[id].(interviewStatus := Some(PendingReview), interviewSubmittedAt := Some(now))]
      && Interview(S.nextInterviewId, id, answers.value, PendingReview, None, None) in S'.interviews
      && (forall x :: x in S'.interviews && x.userId == id ==> x == Interview(S.nextInterviewId, id, answers.value, PendingReview, None, None))
      && (forall x: Interview :: x.userId != id ==> (x in S'.interviews <==> x in S.interviews))
      && S'.nextInterviewId == S.nextInterviewId + 1
  {
    if userId.None? || answers.None? then
      Reply(S, Err(MissingFields))
    else if userId.value !in S.users then
      Reply(S, Err(UserNotFound))
    else
      var id := userId.value;
      var u := S.users[id];
      if u.interviewStatus == Some(Approved) then
        Reply(S, Err(AlreadyApproved))
      else if u.interviewStatus == Some(Rejected) && now - u.interviewSubmittedAt.GetOr(0) < ThreeDaysMs then
        Reply(S, Err(RetryTooEarly))
      else
        var kept := if u.interviewStatus == Some(Rejected) then WithoutUser(S.interviews, id) else S.interviews;
        if u.interviewStatus == Some(PendingReview) then
          Reply(S.(interviews := kept), Err(AlreadySubmitted))
        else if IndexOfUser(kept, id).Some? then
          Reply(S.(interviews := kept), Err(ServerError))
        else
          var created := Interview(S.nextInterviewId, id, answers.value, PendingReview, None, None);
          Reply(Store(S.users[id := u.(interviewStatus := Some(PendingReview), interviewSubmittedAt := Some(now))],
                      kept + [created],
                      S.nextInterviewId + 1),
                Ok(()))
  }

  /** /me and /submit agree for a rejected worker with a recorded submission:
      /me offers a retry exactly when /submit would accept one. */
  lemma MeAgreesWithSubmit(S: Store, id: Id, answers: seq<string>, now: int)
    requires id in S.users
    requires S.users[id].interviewStatus == Some(Rejected) && S.users[id].interviewSubmittedAt.Some?
    ensures Me(S, Some(id), now).Ok?
    ensures Me(S, Some(id), now).value.canRetryInterview <==> Submit(S, Some(id), Some(answers), now).outcome.Ok?
  {
  }

  /** Submitting keeps the table's constraints: the user's old interviews are gone
      (or there were none), and the new one has a created id. */
  lemma SubmitPreservesWf(S: Store, userId: Option<Id>, answers: Option<seq<string>>, now: int)
    requires Wf(S)
    ensures Wf(Submit(S, userId, answers, now).store)
  {
    var r := Submit(S, userId, answers, now);
    if r.outcome.Ok? {
      var id := userId.value;
      var u := S.users[id];
      var kept := if u.interviewStatus == Some(Rejected) then WithoutUser(S.interviews, id) else S.interviews;
      KeepKeepsDistinct(S.interviews, (x: Interview) => x.userId != id);
      KeepKeepsAscending(S.interviews, (x: Interview) => x.userId != id);
      var created := Interview(S.nextInterviewId, id, answers.value, PendingReview, None, None);
      assert r.store.interviews == kept + [created];
      forall i | 0 <= i < |kept|
        ensures kept[i].id < S.nextInterviewId && kept[i].userId in S.users && kept[i].userId != id
      {
        assert kept[i] in S.interviews;
      }
      AppendFresh(kept, created);
    }
  }

  /** A null submission time on a rejected user: /me offers no retry, yet /submit
      reads the time as the epoch and accepts once three days past it. */
  lemma NullSubmissionTimeDisagrees(S: Store, id: Id, answers: seq<string>, now: int)
    requires id in S.users
    requires S.users[id].interviewStatus == Some(Rejected) && S.users[id].interviewSubmittedAt.None?
    requires now >= ThreeDaysMs
    ensures Me(S, Some(id), now).Ok? && !Me(S, Some(id), now).value.canRetryInterview
    ensures Submit(S, Some(id), Some(answers), now).outcome.Ok?
  {
  }
}

=== FILE: interview_review.dfy ===
/** POST /approve, POST /reject and GET /retry-status of the interview review
    routes (routes/interviewReview.routes.js). The admin gate in front of them is
    modelled in AdminGate. */
module InterviewReviewRoute {
  import opened Types
  import opened Accounts
  import opened InterviewStore
  import opened InterviewRoute

  /** Sets the interview's status (and review time, and for a rejection its
      retry time), then the owning user's status. The interview write lands
      even if the user write then throws. An unknown interview makes the first
      write throw, and nothing changes. */
  function Review(S: Store, interviewId: Option<nat>, status: InterviewStatus, retryAfter: Option<int>, now: int)
    : (r: Reply<()>)
    requires status == Approved || status == Rejected
    ensures !Truthy(interviewId) ==> r == Reply(S, Err(MissingInterviewId))
    ensures Truthy(interviewId) && IndexOfId(S.interviews, interviewId.value).None? ==> r == Reply(S, Err(ServerError))
    ensures r.outcome.Ok? <==>
      && Truthy(interviewId) && IndexOfId(S.interviews, interviewId.value).Some?
      && S.interviews[IndexOfId(S.interviews, interviewId.value).value].userId in S.users
    ensures Truthy(interviewId) && IndexOfId(S.interviews, interviewId.value).Some? ==>
      var i := IndexOfId(S.interviews, interviewId.value).value;
      var iv := S.interviews[i];
      var S' := r.store;
      && |S'.interviews| == |S.interviews|
      && S'.interviews[i].id == iv.id && S'.interviews[i].userId == iv.userId
      && S'.interviews[i].status == status
      && S'.interviews[i].reviewedAt == Some(now)
      && (status == Rejected ==> S'.interviews[i].retryAfter == retryAfter)
      && (status == Approved ==> S'.interviews[i].retryAfter == iv.retryAfter)
      && (forall j :: 0 <= j < |S.interviews| && j != i ==> S'.interviews[j] == S.interviews[j])
      && (iv.userId in S.users ==>
            S'.users == S.users[iv.userId := S.users[iv.userId].(interviewStatus := Some(status))])
      && (iv.userId !in S.users ==> S'.users == S.users)
      && S'.nextInterviewId == S.nextInterviewId
  {
    if !Truthy(interviewId) then
      Reply(S, Err(MissingInterviewId))
    else
      var idx := IndexOfId(S.interviews, interviewId.value);
      if idx.None? then
        Reply(S, Err(ServerError))
      else
        var i := idx.value;
        var iv := S.interviews[i];
        var reviewed := if status == Rejected
                        then iv.(status := status, reviewedAt := Some(now), retryAfter := retryAfter)
                        else iv.(status := status, reviewedAt := Some(now));
        var S1 := S.(interviews := S.interviews[i := reviewed]);
        if iv.userId !in S.users then
          Reply(S1, Err(ServerError))
        else
          Reply(S1.(users := S.users[iv.userId := S.users[iv.userId].(interviewStatus := Some(status))]), Ok(()))
  }

  /** /pending: the interviews waiting for review, oldest first. */
  function PendingInterviews(S: Store): (r: seq<Interview>)
    ensures forall x :: x in r <==> x in S.interviews && x.status == PendingReview
  {
    Keep(S.interviews, (x: Interview) => x.status == PendingReview)
  }

  /** Under the table's constraints the pending list has no duplicates and runs
      in creation order. */
  lemma PendingInCreationOrder(S: Store)
    requires Wf(S)
    ensures DistinctKeys(PendingInterviews(S)) && IdsAscending(PendingInterviews(S))
  {
    KeepKeepsDistinct(S.interviews, (x: Interview) => x.status == PendingReview);
    KeepKeepsAscending(S.interviews, (x: Interview) => x.status == PendingReview);
  }

  /** A successful submission puts the new interview on the pending list. */
  lemma SubmittedIsPending(S: Store, userId: Option<Id>, answers: Option<seq<string>>, now: int)
    requires Submit(S, userId, answers, now).outcome.Ok?
    ensures Interview(S.nextInterviewId, userId.value, answers.value, PendingReview, None, None)
            in PendingInterviews(Submit(S, userId, answers, now).store)
  {
  }

  /** Once reviewed, an interview is off the pending list (ids being unique). */
  lemma ReviewedIsNotPending(S: Store, interviewId: Option<nat>, status: InterviewStatus, retryAfter: Option<int>, now: int)
    requires Wf(S)
    requires status == Approved || status == Rejected
    requires Review(S, interviewId, status, retryAfter, now).outcome.Ok?
    ensures forall x :: x in PendingInterviews(Review(S, interviewId, status, retryAfter, now).store) ==>
              x.id != interviewId.value
  {
    var S' := Review(S, interviewId, status, retryAfter, now).store;
    var i := IndexOfId(S.interviews, interviewId.value).value;
    forall x | x in PendingInterviews(S')
      ensures x.id != interviewId.value
    {
      var j :| 0 <= j < |S'.interviews| && S'.interviews[j] == x;
      if j != i {
        assert S.interviews[j] == x;
        assert S.interviews[i].id != S.interviews[j].id || i == j;
      }
    }
  }

  /** /approve: interview and user both APPROVED, whatever they were before. */
  function ApproveInterview(S: Store, interviewId: Option<nat>, now: int): (r: Reply<()>)
    ensures r.outcome.Ok? ==>
      && Truthy(interviewId) && IndexOfId(S.interviews, interviewId.value).Some?
      && var i := IndexOfId(S.interviews, interviewId.value).value;
      && i < |r.store.interviews| && S.interviews[i].userId in r.store.users
      && r.store.users[S.interviews[i].userId].interviewStatus == Some(Approved)
      && r.store.interviews[i].status == Approved
  {
    Review(S, interviewId, Approved, None, now)
  }

  /** /reject: interview and user both REJECTED, the interview open for retry
      three days (taken as 72 hours) from now. */
  function RejectInterview(S: Store, interviewId: Option<nat>, now: int): (r: Reply<()>)
    ensures r.outcome.Ok? ==>
      && Truthy(interviewId) && IndexOfId(S.interviews, interviewId.value).Some?
      && var i := IndexOfId(S.interviews, interviewId.value).value;
      && i < |r.store.interviews| && S.interviews[i].userId in r.store.users
      && r.store.users[S.interviews[i].userId].interviewStatus == Some(Rejected)
      && r.store.interviews[i].status == Rejected
      && r.store.interviews[i].retryAfter == Some(now + ThreeDaysMs)
  {
    Review(S, interviewId, Rejected, Some(now + ThreeDaysMs), now)
  }

  /** Approving again, at any later moment, changes nothing but the review time
      of the interview: every user and every interview status stays as the first
      approval left it. Approving twice at the same moment leaves exactly what
      approving once leaves. */
  lemma ApproveInterviewIdempotent(S: Store, interviewId: Option<nat>, now: int, now2: int)
    ensures var S1 := ApproveInterview(S, interviewId, now).store;
      var S2 := ApproveInterview(S1, interviewId, now2).store;
      && S2.users == S1.users && S2.nextInterviewId == S1.nextInterviewId
      && |S2.interviews| == |S1.interviews|
      && (forall j :: 0 <= j < |S1.interviews| ==>
            S2.interviews[j].(reviewedAt := None) == S1.interviews[j].(reviewedAt := None))
      && (now2 == now ==> S2 == S1)
  {
    var S1 := ApproveInterview(S, interviewId, now).store;
    if Truthy(interviewId) && IndexOfId(S.interviews, interviewId.value).Some? {
      var i := IndexOfId(S.interviews, interviewId.value).value;
      IndexOfIdUnique(S.interviews, S1.interviews, interviewId.value, i);
      assert S1.interviews[i := S1.interviews[i]] == S1.interviews;
    }
  }

  /** Changing entries other than the one found keeps the lookup result, so long
      as no other entry takes the id. */
  lemma {:induction false} IndexOfIdUnique(s: seq<Interview>, s': seq<Interview>, id: nat, i: nat)
    requires |s| == |s'| && i < |s| && IndexOfId(s, id) == Some(i)
    requires s'[i].id == id
    requires forall j :: 0 <= j < |s| && j != i ==> s'[j] == s[j]
    ensures IndexOfId(s', id) == Some(i)
  {
    if i > 0 {
      assert s[0] == s'[0];
      var rest := IndexOfId(s[1..], id);
      IndexOfIdUnique(s[1..], s'[1..], id, i - 1);
    }
  }

  /** Under the table's constraints a review of an existing interview always
      succeeds, and keeps the constraints. */
  lemma ReviewPreservesWf(S: Store, interviewId: Option<nat>, status: InterviewStatus, retryAfter: Option<int>, now: int)
    requires Wf(S)
    requires status == Approved || status == Rejected
    ensures Truthy(interviewId) && IndexOfId(S.interviews, interviewId.value).Some? ==>
      Review(S, interviewId, status, retryAfter, now).outcome.Ok?
    ensures Wf(Review(S, interviewId, status, retryAfter, now).store)
  {
    var S' := Review(S, interviewId, status, retryAfter, now).store;
    forall i, j | 0 <= i < j < |S'.interviews|
      ensures S'.interviews[i].id != S'.interviews[j].id && S'.interviews[i].userId != S'.interviews[j].userId
    {
      assert S.interviews[i].id != S.interviews[j].id && S.interviews[i].userId != S.interviews[j].userId;
    }
    forall i, j | 0 <= i < j < |S'.interviews|
      ensures S'.interviews[i].id < S'.interviews[j].id
    {
      assert S.interviews[i].id < S.interviews[j].id;
    }
    forall i | 0 <= i < |S'.interviews|
      ensures S'.interviews[i].id < S'.nextInterviewId && S'.interviews[i].userId in S'.users
    {
      assert S.interviews[i].id < S.nextInterviewId && S.interviews[i].userId in S.users;
    }
  }

  /** What /retry-status reports. */
  datatype RetryView = NoInterview | RetryAllowed | RetryLater(retryAfter: int, hoursRemaining: int)

  /** `Math.ceil(ms / (1000 * 60 * 60))` for a positive number of milliseconds. */
  function HoursCeil(ms: int): (h: int)
    requires ms > 0
    ensures h >= 1
    ensures (h - 1) * HourMs < ms <= h * HourMs
  {
    (ms + HourMs - 1) / HourMs
  }

  /** /retry-status: a missing user id is a 400. The user's interview (the one the
      unique key finds) decides: none means no retry; no retry time, or one that
      has passed, means a retry is open; otherwise the whole hours left, rounded up. */
  function RetryStatus(S: Store, userId: Option<Id>, now: int): (r: Result<RetryView, InterviewError>)
    ensures userId.None? ==> r == Err(MissingUserId)
    ensures userId.Some? ==> r.Ok?
    ensures r.Ok? && r.value.NoInterview? <==> userId.Some? && IndexOfUser(S.interviews, userId.value).None?
    ensures userId.Some? && IndexOfUser(S.interviews, userId.value).Some? ==>
      var ra := S.interviews[IndexOfUser(S.interviews, userId.value).value].retryAfter;
      && (r.value.RetryAllowed? <==> ra.None? || now >= ra.value)
      && (r.value.RetryLater? ==>
            && r.value.retryAfter == ra.value > now
            && r.value.hoursRemaining >= 1
            && (r.value.hoursRemaining - 1) * HourMs < ra.value - now <= r.value.hoursRemaining * HourMs)
  {
    if userId.None? then Err(MissingUserId)
    else
      var idx := IndexOfUser(S.interviews, userId.value);
      if idx.None? then Ok(NoInterview)
      else
        var ra := S.interviews[idx.value].retryAfter;
        if ra.None? || now >= ra.value then Ok(RetryAllowed)
        else Ok(RetryLater(ra.value, HoursCeil(ra.value - now)))
  }

  /** The /retry-status handler looks only at the retry time, not at the review
      state: an interview still waiting for review, which /submit would refuse
      to replace, is reported as open for retry. (Behind the admin gate, only a
      whitelisted admin receives this answer.) */
  lemma RetryStatusIgnoresReviewState(answers: seq<string>, now: int)
    ensures var S := Store(map["w" := User("WORKER", "w@example.com", Some(PendingReview), Some(now))],
                           [Interview(1, "w", answers, PendingReview, None, None)], 2);
      && RetryStatus(S, Some("w"), now) == Ok(RetryAllowed)
      && Submit(S, Some("w"), Some(answers), now).outcome == Err(AlreadySubmitted)
  {
  }

  /** The two cooldown clocks disagree: /submit counts three days from the last
      submission, the /retry-status handler three days from the rejection. A
      worker who submits at time 0 and is rejected a day later may resubmit at
      day 3, while the handler, asked by an admin about that worker, still
      reports 24 hours to wait. */
  lemma CooldownClocksDisagree(answers: seq<string>)
    ensures
      var day := 24 * HourMs;
      var S0 := Store(map["w" := User("WORKER", "w@example.com", None, None)], [], 1);
      var S1 := Submit(S0, Some("w"), Some(answers), 0).store;
      var S2 := RejectInterview(S1, Some(1), day).store;
      && S2.users["w"].interviewStatus == Some(Rejected)
      && RetryStatus(S2, Some("w"), 3 * day) == Ok(RetryLater(4 * day, 24))
      && Submit(S2, Some("w"), Some(answers), 3 * day).outcome.Ok?
  {
    var day := 24 * HourMs;
    var S0 := Store(map["w" := User("WORKER", "w@example.com", None, None)], [], 1);
    var S1 := Submit(S0, Some("w"), Some(answers), 0).store;
    assert S1.interviews == [Interview(1, "w", answers, PendingReview, None, None)];
    var S2 := RejectInterview(S1, Some(1), day).store;
    assert S2.interviews == [Interview(1, "w", answers, Rejected, Some(day), Some(day + ThreeDaysMs))];
    assert S2.users["w"].interviewSubmittedAt == Some(0);
  }
}

=== FILE: interview_store.dfy ===
/** The interview table and the users it belongs to, shared by routes/interview.js
    and routes/interviewReview.routes.js. Neither route uses a transaction: each
    write lands on its own, so every operation returns the store it leaves behind
    together with its response. */
module InterviewStore {
  import opened Types
  import opened Accounts

  /** THREE_DAYS = 3 * 24 * 60 * 60 * 1000 milliseconds. */
  const ThreeDaysMs: int := 3 * 24 * 60 * 60 * 1000

  /** One hour, 1000 * 60 * 60 milliseconds. */
  const HourMs: int := 1000 * 60 * 60

  datatype Interview = Interview(
    id: nat,
    userId: Id,
    answers: seq<string>,
    status: InterviewStatus,
    reviewedAt: Option<int>,
    retryAfter: Option<int>)

  /** New interviews take the id `nextInterviewId`. */
  datatype Store = Store(users: map<Id, User>, interviews: seq<Interview>, nextInterviewId: nat)

  datatype InterviewError =
    | Unauthorized          // 401: /me without a user id
    | UserNotFound          // 404
    | MissingFields         // 400: /submit without user id or answers
    | AlreadyApproved       // 400
    | RetryTooEarly         // 400: "You can retry the interview after 3 days"
    | AlreadySubmitted      // 400
    | MissingInterviewId    // 400
    | MissingUserId         // 400: /retry-status without a user id
    | ServerError           // 500: a Prisma call threw

  /** The store after a request, and the response. */
  datatype Reply<T> = Reply(store: Store, outcome: Result<T, InterviewError>)

  /** The table's constraints: ids are unique, below the counter and increasing
      in creation order; at most one interview per user (the unique key
      `findUnique({ where: { userId } })` relies on); and every interview belongs
      to an existing user. */
  ghost predicate Wf(S: Store) {
    && DistinctKeys(S.interviews)
    && IdsAscending(S.interviews)
    && (forall i :: 0 <= i < |S.interviews| ==>
          S.interviews[i].id < S.nextInterviewId && S.interviews[i].userId in S.users)
  }

  /** No two interviews share an id or a user. */
  ghost predicate DistinctKeys(s: seq<Interview>) {
    forall i, j :: 0 <= i < j < |s| ==> s[i].id != s[j].id && s[i].userId != s[j].userId
  }

  /** Interviews sit in the order they were created, which is the order of their ids. */
  ghost predicate IdsAscending(s: seq<Interview>) {
    forall i, j :: 0 <= i < j < |s| ==> s[i].id < s[j].id
  }

  /** Where the interview with id `id` sits, if anywhere. */
  function IndexOfId(s: seq<Interview>, id: nat): (r: Option<nat>)
    ensures r.Some? ==> r.value < |s| && s[r.value].id == id
    ensures r.None? ==> forall i :: 0 <= i < |s| ==> s[i].id != id
  {
    if s == [] then None
    else if s[0].id == id then Some(0)
    else
      var rest := IndexOfId(s[1..], id);
      if rest.Some? then Some(rest.value + 1) else None
  }

  /** Where the first interview of user `u` sits, if anywhere. */
  function IndexOfUser(s: seq<Interview>, u: Id): (r: Option<nat>)
    ensures r.Some? ==> r.value < |s| && s[r.value].userId == u
    ensures r.Some? ==> forall i :: 0 <= i < r.value ==> s[i].userId != u
    ensures r.None? ==> forall i :: 0 <= i < |s| ==> s[i].userId != u
  {
    if s == [] then None
    else if s[0].userId == u then Some(0)
    else
      var rest := IndexOfUser(s[1..], u);
      if rest.Some? then Some(rest.value + 1) else None
  }

  /** The interviews satisfying `p`, in their order: a `where` clause. */
  function Keep(s: seq<Interview>, p: Interview -> bool): (r: seq<Interview>)
    ensures forall x :: x in r <==> x in s && p(x)
    ensures |r| <= |s|
  {
    if s == [] then []
    else if p(s[0]) then [s[0]] + Keep(s[1..], p)
    else Keep(s[1..], p)
  }

  /** `interview.deleteMany({ where: { userId } })`: keeps every other user's
      interviews, in order, and drops all of `u`'s. */
  function WithoutUser(s: seq<Interview>, u: Id): (r: seq<Interview>)
    ensures forall x :: x in r <==> x in s && x.userId != u
  {
    Keep(s, (x: Interview) => x.userId != u)
  }

  /** Selecting interviews keeps them pairwise distinct. */
  lemma {:induction false} KeepKeepsDistinct(s: seq<Interview>, p: Interview -> bool)
    requires DistinctKeys(s)
    ensures DistinctKeys(Keep(s, p))
  {
    if s != [] {
      var rest := Keep(s[1..], p);
      forall i, j | 0 <= i < j < |s[1..]|
        ensures s[1..][i].id != s[1..][j].id && s[1..][i].userId != s[1..][j].userId
      {
        assert s[1..][i] == s[i + 1] && s[1..][j] == s[j + 1];
      }
      KeepKeepsDistinct(s[1..], p);
      if p(s[0]) {
        var r := [s[0]] + rest;
        forall i, j | 0 <= i < j < |r|
          ensures r[i].id != r[j].id && r[i].userId != r[j].userId
        {
          assert r[j] == rest[j - 1] && rest[j - 1] in rest;
          var k :| 0 <= k < |s[1..]| && s[1..][k] == rest[j - 1];
          assert s[k + 1] == rest[j - 1];
          if i > 0 {
            assert r[i] == rest[i - 1];
          }
        }
      }
    }
  }

  /** Selecting interviews keeps them in creation order. */
  lemma {:induction false} KeepKeepsAscending(s: seq<Interview>, p: Interview -> bool)
    requires IdsAscending(s)
    ensures IdsAscending(Keep(s, p))
  {
    if s != [] {
      var rest := Keep(s[1..], p);
      forall i, j | 0 <= i < j < |s[1..]|
        ensures s[1..][i].id < s[1..][j].id
      {
        assert s[1..][i] == s[i + 1] && s[1..][j] == s[j + 1];
      }
      KeepKeepsAscending(s[1..], p);
      if p(s[0]) {
        var r := [s[0]] + rest;
        forall i, j | 0 <= i < j < |r|
          ensures r[i].id < r[j].id
        {
          assert r[j] == rest[j - 1] && rest[j - 1] in rest;
          var k :| 0 <= k < |s[1..]| && s[1..][k] == rest[j - 1];
          assert s[k + 1] == rest[j - 1];
          if i > 0 {
            assert r[i] == rest[i - 1];
          }
        }
      }
    }
  }

  /** Appending an interview whose id is above all others and whose user has none
      keeps the table distinct and in creation order. */
  lemma AppendFresh(s: seq<Interview>, c: Interview)
    requires DistinctKeys(s) && IdsAscending(s)
    requires forall i :: 0 <= i < |s| ==> s[i].id < c.id && s[i].userId != c.userId
    ensures DistinctKeys(s + [c]) && IdsAscending(s + [c])
  {
    var t := s + [c];
    forall i, j | 0 <= i < j < |t|
      ensures t[i].id < t[j].id && t[i].userId != t[j].userId
    {
      assert t[i] == s[i];
    }
  }
}

=== FILE: ledger.dfy ===
/** The state shared by the wallet routes: wallets keyed by their owner,
    tasks, and the append-only log of wallet transactions. */
module Ledger {
  import opened Types
  import opened MapSum
  import opened Money

  /** A wallet row, amounts in cents. */
  datatype Wallet = Wallet(totalDeposited: int, unusedBalance: int, lockedFunds: int)

  /** The row `wallet.create` writes when a wallet is missing. */
  const EmptyWallet := Wallet(0, 0, 0)

  datatype EntryKind = Deposit | Withdrawal | Lock | Unlock | Escrow | Fee

  /** A `walletTransaction` row; the wallet is named by its owner. */
  datatype Entry = Entry(walletOf: Id, kind: EntryKind, amount: int, platformFee: Option<int>)

  datatype TaskStatus = PendingAdminApproval | Live | Closed

  datatype Task = Task(
    clientId: Id,
    submittedBy: Id,
    title: string,
    rewardPerWorker: real,
    numberOfWorkers: real,
    totalCost: int,
    status: TaskStatus,
    submittedAt: int,
    adminEditedBy: Option<Id>,
    adminEditedAt: Option<int>,
    rejectionReason: Option<string>)

  /** The database as the wallet routes see it. `adminUser` is the user that
      `findFirst({ role: "ADMIN" })` returns, if any; its wallet is the platform
      wallet. New tasks take the id `nextTaskId`. */
  datatype Ledger = Ledger(
    wallets: map<Id, Wallet>,
    tasks: map<nat, Task>,
    entries: seq<Entry>,
    adminUser: Option<Id>,
    nextTaskId: nat)

  /** The errors the wallet routes return; none of them leaves a change behind. */
  datatype LedgerError =
    | InvalidRequest          // 400: missing user id or amount
    | MissingFields           // 400: task creation without client, title, reward or worker count
    | InvalidNumbers          // 400: reward or worker count non-finite or not positive
    | BelowMinimumCost        // 400: task total under MIN_TASK_COST
    | WalletNotFound          // 400
    | InsufficientBalance     // 400
    | MissingAdminId          // 401
    | TaskIdRequired          // 400: also "taskId and reason required" on reject
    | TaskNotFound            // 400
    | TaskNotPending          // 400
    | ClientWalletNotFound    // 400
    | LockedFundsInsufficient // 400
    | AdminUserMissing        // 500: thrown inside the transaction, so it rolls back

  /** The wallet a route works on: the stored one, or the zeroed row it would create. */
  function WalletOrEmpty(L: Ledger, u: Id): Wallet {
    if u in L.wallets then L.wallets[u] else EmptyWallet
  }

  /** Funds a wallet holds in the system: spendable plus locked. */
  function Holdings(w: Wallet): int {
    w.unusedBalance + w.lockedFunds
  }

  /** All funds held in the system, over every wallet including the platform's. */
  ghost function TotalFunds(ws: map<Id, Wallet>): int {
    Sum(ws, Holdings)
  }

  /** The cost a task still holds locked on client `u`'s wallet. */
  function LockedCost(u: Id): Task -> int {
    (t: Task) => if t.clientId == u && t.status == PendingAdminApproval then t.totalCost else 0
  }

  /** The total cost of `u`'s tasks that are waiting for an admin decision. */
  ghost function PendingCost(tasks: map<nat, Task>, u: Id): int {
    Sum(tasks, LockedCost(u))
  }

  ghost predicate NonNegative(w: Wallet) {
    w.totalDeposited >= 0 && w.unusedBalance >= 0 && w.lockedFunds >= 0
  }

  /** The invariant every wallet operation preserves:
      - no wallet balance is negative;
      - every task has an id below the counter, a client that owns a wallet, and
        a total cost of at least MIN_TASK_COST;
      - each wallet's locked funds are exactly the cost of its owner's pending tasks. */
  ghost predicate Inv(L: Ledger) {
    && (forall u :: u in L.wallets ==> NonNegative(L.wallets[u]))
    && (forall id :: id in L.tasks ==>
          id < L.nextTaskId && L.tasks[id].clientId in L.wallets && L.tasks[id].totalCost >= MinTaskCostCents)
    && (forall u :: u in L.wallets ==> L.wallets[u].lockedFunds == PendingCost(L.tasks, u))
  }

  /** The state of a fresh database: nothing but (perhaps) the seeded ADMIN user.
      Task ids count up from 1, as a database sequence does. */
  function Initial(admin: Option<Id>): (L: Ledger)
    ensures Inv(L)
    ensures TotalFunds(L.wallets) == 0
  {
    Ledger(map[], map[], [], admin, 1)
  }

  /** Changing one wallet changes the total by that wallet's change in holdings. */
  lemma TotalFundsUpdate(ws: map<Id, Wallet>, u: Id, w: Wallet)
    ensures TotalFunds(ws[u := w]) == TotalFunds(ws) - Holdings(if u in ws then ws[u] else EmptyWallet) + Holdings(w)
  {
    SumUpdate(ws, Holdings, u, w);
  }

  /** A client with no task in the map has nothing pending. */
  lemma PendingCostNoTasks(tasks: map<nat, Task>, u: Id)
    requires forall id :: id in tasks ==> tasks[id].clientId != u
    ensures PendingCost(tasks, u) == 0
  {
    SumOverZero(tasks, LockedCost(u), tasks.Keys);
  }

  /** Replacing one task changes each client's pending cost by that task's change. */
  lemma PendingCostUpdate(tasks: map<nat, Task>, id: nat, t: Task, u: Id)
    ensures PendingCost(tasks[id := t], u)
         == PendingCost(tasks, u) - (if id in tasks then LockedCost(u)(tasks[id]) else 0) + LockedCost(u)(t)
  {
    SumUpdate(tasks, LockedCost(u), id, t);
  }

  /** Under the invariant a pending task's cost is covered by its client's locked funds. */
  lemma PendingTaskIsCovered(L: Ledger, id: nat)
    requires Inv(L)
    requires id in L.tasks && L.tasks[id].status == PendingAdminApproval
    ensures L.tasks[id].clientId in L.wallets
    ensures L.wallets[L.tasks[id].clientId].lockedFunds >= L.tasks[id].totalCost
  {
    var u := L.tasks[id].clientId;
    forall k | k in L.tasks
      ensures LockedCost(u)(L.tasks[k]) >= 0
    {
    }
    SumOverBoundsTerm(L.tasks, LockedCost(u), L.tasks.Keys);
  }

  /** An operation that leaves the tasks alone, keeps every wallet, keeps every
      balance non-negative and every locked amount as it was preserves the invariant. */
  lemma InvAfterBalanceChange(L: Ledger, L': Ledger)
    requires Inv(L)
    requires L'.tasks == L.tasks && L'.nextTaskId == L.nextTaskId
    requires L.wallets.Keys <= L'.wallets.Keys
    requires forall u :: u in L'.wallets ==> NonNegative(L'.wallets[u])
    requires forall u :: u in L'.wallets ==> L'.wallets[u].lockedFunds == WalletOrEmpty(L, u).lockedFunds
    ensures Inv(L')
  {
    forall u | u in L'.wallets
      ensures L'.wallets[u].lockedFunds == PendingCost(L'.tasks, u)
    {
      if u !in L.wallets {
        PendingCostNoTasks(L.tasks, u);
      }
    }
  }

  /** Prisma's `wallet.update` with `increment`/`decrement` on the wallet of `u`,
      applied to the zeroed row when the route has just created it. */
  function Adjust(ws: map<Id, Wallet>, u: Id, dDeposited: int, dUnused: int, dLocked: int): (ws': map<Id, Wallet>)
    ensures ws'.Keys == ws.Keys + {u}
    ensures forall v :: v in ws && v != u ==> ws'[v] == ws[v]
    ensures var w := if u in ws then ws[u] else EmptyWallet;
      ws'[u] == Wallet(w.totalDeposited + dDeposited, w.unusedBalance + dUnused, w.lockedFunds + dLocked)
  {
    var w := if u in ws then ws[u] else EmptyWallet;
    ws[u := Wallet(w.totalDeposited + dDeposited, w.unusedBalance + dUnused, w.lockedFunds + dLocked)]
  }

  /** Adjusting one wallet moves the system total by exactly its change in holdings. */
  lemma AdjustTotal(ws: map<Id, Wallet>, u: Id, dDeposited: int, dUnused: int, dLocked: int)
    ensures TotalFunds(Adjust(ws, u, dDeposited, dUnused, dLocked)) == TotalFunds(ws) + dUnused + dLocked
  {
    var w := if u in ws then ws[u] else EmptyWallet;
    TotalFundsUpdate(ws, u, Wallet(w.totalDeposited + dDeposited, w.unusedBalance + dUnused, w.lockedFunds + dLocked));
  }
}

=== FILE: map_sum.dfy ===
/** Sums of an integer-valued measure over the values of a finite map.
    Used for the total funds held in all wallets, for the locked cost of a
    client's pending tasks, and for the rewards paid out on completions. */
module MapSum {

  ghost function SumOver<K, V>(m: map<K, V>, f: V -> int, keys: set<K>): int
    requires keys <= m.Keys
    decreases keys
  {
    if keys == {} then 0
    else
      var k :| k in keys;
      f(m[k]) + SumOver(m, f, keys - {k})
  }

  /** The measure `f` summed over every value of `m`. */
  ghost function Sum<K, V>(m: map<K, V>, f: V -> int): int
  {
    SumOver(m, f, m.Keys)
  }

  /** The sum does not depend on the order the keys are taken in: any key can be split off first. */
  lemma {:induction false} SumOverPick<K, V>(m: map<K, V>, f: V -> int, keys: set<K>, k: K)
    requires keys <= m.Keys && k in keys
    ensures SumOver(m, f, keys) == f(m[k]) + SumOver(m, f, keys - {k})
    decreases keys
  {
    var j :| j in keys && SumOver(m, f, keys) == f(m[j]) + SumOver(m, f, keys - {j});
    if j != k {
      SumOverPick(m, f, keys - {j}, k);
      SumOverPick(m, f, keys - {k}, j);
      assert keys - {j} - {k} == keys - {k} - {j};
    }
  }

  /** Two maps whose values agree under `f` on `keys` have the same sum there. */
  lemma {:induction false} SumOverFrame<K, V>(m1: map<K, V>, m2: map<K, V>, f: V -> int, keys: set<K>)
    requires keys <= m1.Keys && keys <= m2.Keys
    requires forall k :: k in keys ==> f(m1[k]) == f(m2[k])
    ensures SumOver(m1, f, keys) == SumOver(m2, f, keys)
    decreases keys
  {
    if keys != {} {
      var k :| k in keys;
      SumOverPick(m1, f, keys, k);
      SumOverPick(m2, f, keys, k);
      SumOverFrame(m1, m2, f, keys - {k});
    }
  }

  /** Overwriting (or adding) one key changes the sum by exactly the difference at that key. */
  lemma SumUpdate<K, V>(m: map<K, V>, f: V -> int, k: K, v: V)
    ensures Sum(m[k := v], f) == Sum(m, f) - (if k in m then f(m[k]) else 0) + f(v)
  {
    var m' := m[k := v];
    SumOverPick(m', f, m'.Keys, k);
    if k in m {
      SumOverPick(m, f, m.Keys, k);
      assert m'.Keys - {k} == m.Keys - {k};
    } else {
      assert m'.Keys - {k} == m.Keys;
    }
    SumOverFrame(m, m', f, m.Keys - {k});
  }

  /** A sum of non-negative terms is at least each of its terms. */
  lemma {:induction false} SumOverBoundsTerm<K, V>(m: map<K, V>, f: V -> int, keys: set<K>)
    requires keys <= m.Keys
    requires forall k :: k in keys ==> f(m[k]) >= 0
    ensures SumOver(m, f, keys) >= 0
    ensures forall k :: k in keys ==> f(m[k]) <= SumOver(m, f, keys)
    decreases keys
  {
    if keys != {} {
      var j :| j in keys;
      SumOverPick(m, f, keys, j);
      SumOverBoundsTerm(m, f, keys - {j});
      forall k | k in keys
        ensures f(m[k]) <= SumOver(m, f, keys)
      {
        if k != j {
          assert k in keys - {j};
        }
      }
    }
  }

  /** A sum whose every term is zero is zero. */
  lemma {:induction false} SumOverZero<K, V>(m: map<K, V>, f: V -> int, keys: set<K>)
    requires keys <= m.Keys
    requires forall k :: k in keys ==> f(m[k]) == 0
    ensures SumOver(m, f, keys) == 0
    decreases keys
  {
    if keys != {} {
      var k :| k in keys;
      SumOverPick(m, f, keys, k);
      SumOverZero(m, f, keys - {k});
    }
  }
}

=== FILE: money.dfy ===
/** Fee policy and amount parsing shared by the deposit, withdraw and task routes
    (routes/deposit.js, routes/withdraw.js, routes/task.js). Money is counted in
    integer cents; the routes' `Number(x.toFixed(2))` becomes rounding to the
    nearest cent, halves rounded up (the routes only round non-negative values). */
module Money {
  import opened Types

  /** PLATFORM_FEE_RATE = 0.10, as a percentage. */
  const FeePercent: nat := 10

  /** MIN_TASK_COST = 5 dollars, in cents. */
  const MinTaskCostCents: nat := 500

  /** `Number(x.toFixed(2))` for a non-negative dollar amount `x`, in cents. */
  function RoundCents(x: real): (c: int)
    requires x >= 0.0
    ensures c >= 0
    ensures c as real - 0.5 <= x * 100.0 < c as real + 0.5
  {
    (x * 100.0 + 0.5).Floor
  }

  /** The platform's cut of a gross amount and what is left for the user. */
  datatype FeeSplit = FeeSplit(fee: nat, net: nat)

  /** `fee = round2(amt * 0.10)`, `net = round2(amt - fee)`, in cents. The fee is the
      nearest cent to a tenth of the amount (halves up) and the net is taken from
      the same rounded fee, so the two always add back to the gross amount. */
  function Split(amt: nat): (s: FeeSplit)
    ensures s.fee + s.net == amt
    ensures 100 * s.fee - 50 <= amt * FeePercent < 100 * s.fee + 50
    ensures s.fee <= s.net
  {
    var fee := (amt * FeePercent + 50) / 100;
    FeeSplit(fee, amt - fee)
  }

  /** The integer fee formula is exactly the rounding of the real product
      `(amt / 100) * 0.10` to cents: no drift between the two. */
  lemma SplitFeeIsRoundedTenth(amt: nat)
    ensures Split(amt).fee == RoundCents(amt as real / 100.0 * (FeePercent as real / 100.0))
  {
    var c := RoundCents(amt as real / 100.0 * (FeePercent as real / 100.0));
    var fee := Split(amt).fee;
    assert amt as real / 100.0 * (FeePercent as real / 100.0) * 100.0 == (amt * FeePercent) as real / 100.0;
    assert (100 * c - 50) as real <= (amt * FeePercent) as real < (100 * c + 50) as real;
    RoundingUnique(amt * FeePercent, fee, c);
  }

  /** At most one whole number of cents is the half-up rounding of `x / 100`. */
  lemma RoundingUnique(x: int, a: int, b: int)
    requires 100 * a - 50 <= x < 100 * a + 50
    requires 100 * b - 50 <= x < 100 * b + 50
    ensures a == b
  {
  }

  /** `parseAmount` as written in routes/deposit.js and routes/withdraw.js: the
      value must be finite and positive, and is then rounded to cents. Positivity
      is tested BEFORE rounding. */
  function ParseAmountAsWritten(v: Option<NumInput>): (r: Option<int>)
    ensures r.Some? <==> v.Some? && v.value.Finite? && v.value.v > 0.0
    ensures r.Some? ==> r.value >= 0
    ensures r.Some? ==> r.value as real - 0.5 <= v.value.v * 100.0 < r.value as real + 0.5
  {
    if v.Some? && v.value.Finite? && v.value.v > 0.0 then Some(RoundCents(v.value.v)) else None
  }

  /** A positive amount below half a cent passes the guard and parses to zero cents. */
  lemma ParseAmountAdmitsZero()
    ensures ParseAmountAsWritten(Some(Finite(0.004))) == Some(0)
  {
    assert (0.004 * 100.0 + 0.5).Floor == 0;
  }

  /** `parseAmount` with the evident intent: an amount is accepted only when it
      is still positive after rounding to cents. */
  function ParseAmount(v: Option<NumInput>): (r: Option<nat>)
    ensures r.Some? ==> r.value > 0
    ensures r.Some? <==> v.Some? && v.value.Finite? && v.value.v * 100.0 >= 0.5
    ensures r.Some? ==> r.value as real - 0.5 <= v.value.v * 100.0 < r.value as real + 0.5
  {
    if v.Some? && v.value.Finite? && v.value.v > 0.0 && RoundCents(v.value.v) > 0
    then Some(RoundCents(v.value.v))
    else None
  }

  /** The corrected parser differs from the written one only on the inputs the
      written one turns into zero cents. */
  lemma ParseAmountAgreesExceptZero(v: Option<NumInput>)
    ensures ParseAmountAsWritten(v) == Some(0) ==> ParseAmount(v) == None
    ensures ParseAmountAsWritten(v) != Some(0) ==> ParseAmount(v) == ParseAmountAsWritten(v)
  {
  }

  /** `parseNumber` in routes/task.js: any finite number, no sign check. */
  function ParseNumber(v: NumInput): (r: Option<real>)
    ensures r.Some? <==> v.Finite?
    ensures r.Some? ==> r.value == v.v
  {
    if v.Finite? then Some(v.v) else None
  }

  /** The rounding in the deposit example: 19.99 gives a fee of 2.00 and a net of 17.99. */
  lemma FeeExample()
    ensures ParseAmount(Some(Finite(19.99))) == Some(1999)
    ensures Split(1999) == FeeSplit(200, 1799)
  {
    assert (19.99 * 100.0 + 0.5).Floor == 1999;
  }
}

=== FILE: task_create.dfy ===
/** POST /api/client/task/create (routes/task.js). */
module TaskRoute {
  import opened Types
  import opened Money
  import opened Ledger

  datatype CreateReceipt = CreateReceipt(ledger: Ledger, taskId: nat)

  /** The transaction: the client's wallet must exist and hold at least the total
      cost unused; the cost moves from unused to locked funds, the task is created
      waiting for admin approval, and a LOCK entry is logged. */
  function LockTx(L: Ledger, clientId: Id, title: string, reward: real, workers: real, cost: int, now: int)
    : (r: Result<CreateReceipt, LedgerError>)
    ensures clientId !in L.wallets ==> r == Err(WalletNotFound)
    ensures clientId in L.wallets && L.wallets[clientId].unusedBalance < cost ==> r == Err(InsufficientBalance)
    ensures r.Ok? <==> clientId in L.wallets && L.wallets[clientId].unusedBalance >= cost
    ensures r.Ok? ==>
      var L' := r.value.ledger;
      var id := r.value.taskId;
      var c := L.wallets[clientId];
      && id == L.nextTaskId && L'.nextTaskId == id + 1
      && L'.wallets == L.wallets[clientId := c.(unusedBalance := c.unusedBalance - cost, lockedFunds := c.lockedFunds + cost)]
      && L'.tasks == L.tasks[id := Task(clientId, clientId, title, reward, workers, cost,
                                         PendingAdminApproval, now, None, None, None)]
      && L'.entries == L.entries + [Entry(clientId, Lock, cost, Some(0))]
      && L'.adminUser == L.adminUser
  {
    if clientId !in L.wallets then
      Err(WalletNotFound)
    else if L.wallets[clientId].unusedBalance < cost then
      Err(InsufficientBalance)
    else
      var id := L.nextTaskId;
      var task := Task(clientId, clientId, title, reward, workers, cost, PendingAdminApproval, now, None, None, None);
      Ok(CreateReceipt(
        L.(wallets := Adjust(L.wallets, clientId, 0, -cost, cost),
           tasks := L.tasks[id := task],
           entries := L.entries + [Entry(clientId, Lock, cost, Some(0))],
           nextTaskId := id + 1),
        id))
  }

  /** `Number((reward * nWorkers).toFixed(2))`, in cents. */
  function TaskCost(reward: real, workers: real): (c: int)
    requires reward > 0.0 && workers > 0.0
    ensures c >= 0
    ensures c as real - 0.5 <= reward * workers * 100.0 < c as real + 0.5
  {
    assert reward * workers > 0.0;
    RoundCents(reward * workers)
  }

  /** The whole route. Missing fields, non-finite or non-positive numbers and a
      total under MIN_TASK_COST are refused before the transaction runs. The total
      is `reward * workers` rounded to cents, checked after rounding. */
  function CreateTask(L: Ledger, clientId: Option<Id>, title: Option<string>,
                      rewardPerWorker: Option<NumInput>, numberOfWorkers: Option<NumInput>, now: int)
    : (r: Result<CreateReceipt, LedgerError>)
    ensures (clientId.None? || title.None? || title == Some("") || rewardPerWorker.None? || numberOfWorkers.None?)
            ==> r == Err(MissingFields)
    ensures r.Err? && r.error == InvalidNumbers <==>
      && clientId.Some? && title.Some? && title != Some("") && rewardPerWorker.Some? && numberOfWorkers.Some?
      && !(rewardPerWorker.value.Finite? && numberOfWorkers.value.Finite?
           && rewardPerWorker.value.v > 0.0 && numberOfWorkers.value.v > 0.0)
    ensures && clientId.Some? && title.Some? && title != Some("") && rewardPerWorker.Some? && numberOfWorkers.Some?
            && rewardPerWorker.value.Finite? && numberOfWorkers.value.Finite?
            && rewardPerWorker.value.v > 0.0 && numberOfWorkers.value.v > 0.0 ==>
      var cost := TaskCost(rewardPerWorker.value.v, numberOfWorkers.value.v);
      && (cost < MinTaskCostCents ==> r == Err(BelowMinimumCost))
      && (cost >= MinTaskCostCents ==>
            r == LockTx(L, clientId.value, title.value, rewardPerWorker.value.v, numberOfWorkers.value.v, cost, now))
    ensures r.Ok? ==>
      && rewardPerWorker.value.Finite? && numberOfWorkers.value.Finite?
      && rewardPerWorker.value.v > 0.0 && numberOfWorkers.value.v > 0.0
      && TaskCost(rewardPerWorker.value.v, numberOfWorkers.value.v) >= MinTaskCostCents
      && r == LockTx(L, clientId.value, title.value, rewardPerWorker.value.v, numberOfWorkers.value.v,
                     TaskCost(rewardPerWorker.value.v, numberOfWorkers.value.v), now)
  {
    if clientId.None? || title.None? || title.value == "" || rewardPerWorker.None? || numberOfWorkers.None? then
      Err(MissingFields)
    else
      var reward := ParseNumber(rewardPerWorker.value);
      var workers := ParseNumber(numberOfWorkers.value);
      if reward.None? || workers.None? || workers.value <= 0.0 || reward.value <= 0.0 then
        Err(InvalidNumbers)
      else
        var cost := TaskCost(reward.value, workers.value);
        if cost < MinTaskCostCents then
          Err(BelowMinimumCost)
        else
          LockTx(L, clientId.value, title.value, reward.value, workers.value, cost, now)
  }

  /** A created task waits for approval, belongs to and was submitted by the
      client, carries the parsed reward and worker count, and costs their product
      rounded to cents, at least MIN_TASK_COST. */
  lemma CreatedTaskShape(L: Ledger, clientId: Option<Id>, title: Option<string>,
                         rewardPerWorker: Option<NumInput>, numberOfWorkers: Option<NumInput>, now: int)
    requires CreateTask(L, clientId, title, rewardPerWorker, numberOfWorkers, now).Ok?
    ensures var r := CreateTask(L, clientId, title, rewardPerWorker, numberOfWorkers, now).value;
      && r.taskId in r.ledger.tasks
      && var t := r.ledger.tasks[r.taskId];
      && t.status == PendingAdminApproval
      && t.clientId == clientId.value && t.submittedBy == clientId.value && t.title == title.value
      && t.rewardPerWorker == rewardPerWorker.value.v > 0.0
      && t.numberOfWorkers == numberOfWorkers.value.v > 0.0
      && t.totalCost >= MinTaskCostCents
      && t.totalCost as real - 0.5 <= t.rewardPerWorker * t.numberOfWorkers * 100.0 < t.totalCost as real + 0.5
      && r.ledger.entries == L.entries + [Entry(t.clientId, Lock, t.totalCost, Some(0))]
  {
  }

  /** Locking funds for a task moves them between the client's own balances:
      the system total is unchanged. */
  lemma LockConservesFunds(L: Ledger, clientId: Id, title: string, reward: real, workers: real, cost: int, now: int)
    requires LockTx(L, clientId, title, reward, workers, cost, now).Ok?
    ensures TotalFunds(LockTx(L, clientId, title, reward, workers, cost, now).value.ledger.wallets) == TotalFunds(L.wallets)
  {
    AdjustTotal(L.wallets, clientId, 0, -cost, cost);
  }

  /** Locking funds for a task of at least MIN_TASK_COST keeps the invariant: the
      new task gets a fresh id, and the client's locked funds grow by exactly the
      cost of its new pending task. */
  lemma LockPreservesInv(L: Ledger, clientId: Id, title: string, reward: real, workers: real, cost: int, now: int)
    requires Inv(L)
    requires cost >= MinTaskCostCents
    requires LockTx(L, clientId, title, reward, workers, cost, now).Ok?
    ensures LockTx(L, clientId, title, reward, workers, cost, now).value.taskId !in L.tasks
    ensures Inv(LockTx(L, clientId, title, reward, workers, cost, now).value.ledger)
  {
    var t := Task(clientId, clientId, title, reward, workers, cost, PendingAdminApproval, now, None, None, None);
    InvAfterLock(L, LockTx(L, clientId, title, reward, workers, cost, now).value.ledger, t);
  }

  /** The state part of the step above, for any new pending task whose cost the
      client's unused balance covers. */
  lemma InvAfterLock(L: Ledger, L': Ledger, t: Task)
    requires Inv(L)
    requires t.status == PendingAdminApproval && t.totalCost >= MinTaskCostCents
    requires t.clientId in L.wallets && L.wallets[t.clientId].unusedBalance >= t.totalCost
    requires L'.wallets == Adjust(L.wallets, t.clientId, 0, -t.totalCost, t.totalCost)
    requires L'.tasks == L.tasks[L.nextTaskId := t] && L'.nextTaskId == L.nextTaskId + 1
    ensures L.nextTaskId !in L.tasks
    ensures Inv(L')
  {
    var id := L.nextTaskId;
    var c := t.clientId;
    var ws := L'.wallets;
    assert id !in L.tasks;
    forall u | u in ws
      ensures NonNegative(ws[u])
      ensures ws[u].lockedFunds == PendingCost(L'.tasks, u)
    {
      PendingCostUpdate(L.tasks, id, t, u);
      if u == c {
        assert ws[u].lockedFunds == L.wallets[u].lockedFunds + t.totalCost;
      } else {
        assert ws[u] == L.wallets[u];
      }
    }
    forall k | k in L'.tasks
      ensures k < L'.nextTaskId && L'.tasks[k].clientId in ws && L'.tasks[k].totalCost >= MinTaskCostCents
    {
    }
  }
}

=== FILE: types.dfy ===
/** Small shared vocabulary: optional values, results with a typed error,
    identifiers, and the shape of a numeric field after JavaScript's `Number(...)`. */
module Types {

  datatype Option<+T> = None | Some(value: T) {
    function GetOr(default: T): T {
      match this
      case Some(v) => v
      case None => default
    }
  }

  /** The outcome of one all-or-nothing operation: the new state on success,
      or a typed error (and then, by construction, no new state at all). */
  datatype Result<+T, +E> = Ok(value: T) | Err(error: E)

  /** A user, wallet-owner or completion identifier. The routes test ids with
      `!id`, so an empty string counts as missing; a present id is never empty. */
  type Id = s: string | s != "" witness "?"

  /** A numeric row id as the routes test it with `!id`: a missing id and the
      number 0 are both falsy, so both count as missing. */
  predicate Truthy(id: Option<nat>) {
    id.Some? && id.value != 0
  }

  /** A request field after `Number(v)`: either a finite number (modelled as an
      exact real, abstracting binary floating point) or NaN / an infinity. */
  datatype NumInput = Finite(v: real) | NotFinite
}

=== FILE: withdraw.dfy ===
/** POST /api/client/withdraw (routes/withdraw.js). */
module WithdrawRoute {
  import opened Types
  import opened Money
  import opened Ledger

  datatype WithdrawReceipt = WithdrawReceipt(ledger: Ledger, fee: nat, payoutAmount: nat, requestedAmount: nat)

  /** The transaction: the client must have a wallet holding at least the gross
      amount unused; the gross is debited and logged as WITHDRAWAL, the platform
      wallet (created if missing) is credited the fee and logged as FEE, and the
      rest, `payoutAmount`, leaves the system through the external payout provider.
      With no ADMIN user the callback throws after the debit, which is rolled back. */
  function WithdrawTx(L: Ledger, user: Id, amt: nat): (r: Result<WithdrawReceipt, LedgerError>)
    ensures user !in L.wallets ==> r == Err(WalletNotFound)
    ensures user in L.wallets && L.wallets[user].unusedBalance < amt ==> r == Err(InsufficientBalance)
    ensures user in L.wallets && L.wallets[user].unusedBalance >= amt && L.adminUser.None? ==> r == Err(AdminUserMissing)
    ensures r.Ok? <==> user in L.wallets && L.wallets[user].unusedBalance >= amt && L.adminUser.Some?
    ensures r.Ok? ==>
      var a := L.adminUser.value;
      var L' := r.value.ledger;
      var c := L.wallets[user];
      var p := WalletOrEmpty(L, a);
      && r.value.requestedAmount == amt
      && r.value.payoutAmount + r.value.fee == amt
      && 10 * r.value.fee - 5 <= amt < 10 * r.value.fee + 5
      && L'.wallets.Keys == L.wallets.Keys + {a}
      && L'.wallets[user].totalDeposited == c.totalDeposited
      && L'.wallets[user].lockedFunds == c.lockedFunds
      && (user != a ==>
            && L'.wallets[user].unusedBalance == c.unusedBalance - amt
            && L'.wallets[a] == p.(unusedBalance := p.unusedBalance + r.value.fee))
      && (user == a ==> L'.wallets[user].unusedBalance == c.unusedBalance - r.value.payoutAmount)
      && (forall v :: v in L.wallets && v != user && v != a ==> L'.wallets[v] == L.wallets[v])
      && L'.entries == L.entries + [Entry(user, Withdrawal, amt, Some(r.value.fee)), Entry(a, Fee, r.value.fee, None)]
      && L'.tasks == L.tasks && L'.adminUser == L.adminUser && L'.nextTaskId == L.nextTaskId
  {
    var s := Split(amt);
    if user !in L.wallets then
      Err(WalletNotFound)
    else if L.wallets[user].unusedBalance < amt then
      Err(InsufficientBalance)
    else
      var ws2 := Adjust(L.wallets, user, 0, -(amt as int), 0);
      var entries2 := L.entries + [Entry(user, Withdrawal, amt, Some(s.fee))];
      if L.adminUser.None? then
        Err(AdminUserMissing)
      else
        var a := L.adminUser.value;
        var ws4 := Adjust(ws2, a, 0, s.fee, 0);
        var entries4 := entries2 + [Entry(a, Fee, s.fee, None)];
        Ok(WithdrawReceipt(L.(wallets := ws4, entries := entries4), s.fee, s.net, amt))
  }

  /** The whole route: a missing user id or an amount that does not parse is a
      400 before any database access; otherwise the transaction runs. */
  function Withdraw(L: Ledger, userId: Option<Id>, amount: Option<NumInput>): (r: Result<WithdrawReceipt, LedgerError>)
    ensures (userId.None? || ParseAmount(amount).None?) ==> r == Err(InvalidRequest)
    ensures userId.Some? && ParseAmount(amount).Some? ==> r == WithdrawTx(L, userId.value, ParseAmount(amount).value)
    ensures r.Ok? ==> r.value.requestedAmount > 0 && r == WithdrawTx(L, userId.value, ParseAmount(amount).value)
  {
    var amt := ParseAmount(amount);
    if userId.None? || amt.None? then Err(InvalidRequest)
    else WithdrawTx(L, userId.value, amt.value)
  }

  /** A withdrawal lowers the funds held in the system by exactly the payout
      that leaves it; the fee stays, moved to the platform wallet. */
  lemma WithdrawConservesFunds(L: Ledger, user: Id, amt: nat)
    requires user in L.wallets && L.wallets[user].unusedBalance >= amt && L.adminUser.Some?
    ensures TotalFunds(WithdrawTx(L, user, amt).value.ledger.wallets)
         == TotalFunds(L.wallets) - WithdrawTx(L, user, amt).value.payoutAmount
  {
    var s := Split(amt);
    var a := L.adminUser.value;
    var ws2 := Adjust(L.wallets, user, 0, -(amt as int), 0);
    var ws4 := Adjust(ws2, a, 0, s.fee, 0);
    var entries4 := L.entries + [Entry(user, Withdrawal, amt, Some(s.fee)), Entry(a, Fee, s.fee, None)];
    assert WithdrawTx(L, user, amt) == Ok(WithdrawReceipt(L.(wallets := ws4, entries := entries4), s.fee, s.net, amt));
    AdjustTotal(L.wallets, user, 0, -(amt as int), 0);
    AdjustTotal(ws2, a, 0, s.fee, 0);
  }

  /** A withdrawal keeps every balance non-negative (the balance guard) and the
      locked funds matched to pending tasks. */
  lemma WithdrawPreservesInv(L: Ledger, user: Id, amt: nat)
    requires Inv(L)
    requires user in L.wallets && L.wallets[user].unusedBalance >= amt && L.adminUser.Some?
    ensures Inv(WithdrawTx(L, user, amt).value.ledger)
  {
    var s := Split(amt);
    var ws2 := Adjust(L.wallets, user, 0, -(amt as int), 0);
    var ws4 := Adjust(ws2, L.adminUser.value, 0, s.fee, 0);
    var L' := WithdrawTx(L, user, amt).value.ledger;
    assert L'.wallets == ws4;
    forall u | u in ws4
      ensures NonNegative(ws4[u]) && ws4[u].lockedFunds == WalletOrEmpty(L, u).lockedFunds
    {
      assert u in ws2 ==> NonNegative(ws2[u]) && ws2[u].lockedFunds == WalletOrEmpty(L, u).lockedFunds;
    }
    InvAfterBalanceChange(L, L');
  }
}
